=== FILE: README.md ===
# VISE server core: a Dafny model

This project models the request-handling core of the VISE visual search
engine: the search-engine manager that answers the `init`, `index_start`,
`index_status` and `engine_exists` commands, the string helpers and response
framing of the HTTP server, and the filename parser that the web front end
uses to build its file-attribute index. Each part is a pure Dafny function or
method. Each comes with a partner: a strict reader for every writer, or a
reference definition for every search. Lemmas connect the two for all inputs
of the stated shape; where that shape leaves inputs out, the list under "Left
out" below names the member and the condition.
Strings are sequences of Dafny `char`, and each `char` stands for one byte of
the source's strings: the C++ `std::string` and the Python 2 `str` both count
bytes.

Modules, one per file:

- `Text` (`text.dfy`). Character and substring search with C++ semantics (first and last occurrence). Splitting on a separator and joining back. Decimal rendering of a length and its parser.
- `FlatJson` (`flat_json.dfy`). The JSON shape that `index_status` writes: an array of flat objects whose values are raw JSON text. It has a writer and a strict reader, with the round trip proved for text free of `,`, `{`, `}` (and `:` in keys).
- `SearchEngineManager` (`search_engine_manager.dfy`). The manager's state is an immutable record. `process_cmd` is a function returning the response, the next state and the side effect it requests: creating an engine or starting the indexing thread.
- `ViseServer` (`server.dfy`). `SplitString`, request-line and body extraction, `ReplaceString`, the byte layout of the raw and JSON HTTP responses, and the message-queue packet formats.
- `FileAttributes` (`filename.dfy`). `extract_filename_parts` with Python's `find`, `rfind` and slice semantics written out (negative indices, `-1` for "not found", bound clamping). It also models the attribute-index rows built from it.

## Model

| member | source | states |
|---|---|---|
| ViseServer.SplitString | src/server/ViseServer.cc:88-97 | appends one piece per separator plus one; the pieces are separator-free, and joining the new pieces with the separator gives back the input; the tokens already present are kept |
| Text.Split | src/server/ViseServer.cc:88-97 | the reference split always has at least one piece; `SplitCount`, `SplitNoSeparator`, `JoinSplit` and `SplitJoin` characterise it |
| Text.SplitJoin | src/server/ViseServer.cc:88-97 | splitting the join of separator-free pieces gives back exactly those pieces |
| Text.JoinSplit | src/server/ViseServer.cc:88-97 | joining the pieces of a split gives back the original string |
| Text.SplitNoSeparator | src/server/ViseServer.cc:90-96 | no piece of a split contains the separator |
| Text.SplitCount | src/server/ViseServer.cc:88-97 | a split has exactly one more piece than the string has separators |
| Text.SplitAtSeparator | src/server/ViseServer.cc:90-96 | splitting `a + sep + b` is the split of `a` followed by the split of `b` |
| ViseServer.ExtractHttpResource | src/server/ViseServer.cc:339-345 | the resource is the space-free text strictly between the first and second spaces of the request |
| ViseServer.ResourceOfRequestLine | src/server/ViseServer.cc:339-345 | for any request line `verb uri rest` with space-free verb and uri, the extracted resource is the uri |
| ViseServer.ExtractHttpContent | src/server/ViseServer.cc:347-351 | the content is the suffix after the last blank line (`\r\n\r\n`); no blank line occurs later, nor inside the content |
| ViseServer.ContentOfMessage | src/server/ViseServer.cc:347-351 | for a head, a blank line and a body that neither contains a blank line nor starts with CRLF, the extracted content is that body |
| Text.RFind | src/server/ViseServer.cc:349 | the result is present exactly when the pattern occurs, and marks an occurrence with none after it |
| ViseServer.ReplaceString | src/server/ViseServer.cc:394-403 | reports true exactly when the pattern occurs; if so, the result is the input with the first occurrence replaced, otherwise the input unchanged |
| ViseServer.ReplaceFirstOccurrence | src/server/ViseServer.cc:394-403 | in `a + pat + b` with no earlier occurrence inside `a`, the result is `a + rep + b` |
| ViseServer.ReplaceEmpty | src/server/ViseServer.cc:395-400 | an empty pattern is found at position 0, so the replacement is prefixed to the string |
| Text.Find | src/server/ViseServer.cc:395 | the result is present exactly when the pattern occurs, and marks the first occurrence |
| ViseServer.ParseResponse | src/server/ViseServer.cc:252-262 | a reader for the framing: it succeeds exactly when the text has a blank line, and the body it returns is what follows that blank line |
| ViseServer.FrameRoundTrip | src/server/ViseServer.cc:252-262 | for head lines that are non-empty and CR-free, reading a framed response gives back exactly those lines and that body |
| ViseServer.RawResponse | src/server/ViseServer.cc:252-257 | the response ends with the blank line followed by the body |
| ViseServer.RawResponseReadsBack | src/server/ViseServer.cc:252-257 | the raw response reads back as the status line, the HTML content type and the length line, and its Content-Length equals the body length |
| ViseServer.RawResponseContent | src/server/ViseServer.cc:252-257 | for a body that contains no blank line and does not start with CRLF, the server's own content extraction recovers the body of a raw response (the source cuts at the last blank line, so other bodies come back shortened) |
| ViseServer.JsonResponse | src/server/ViseServer.cc:264-270 | the response ends with the blank line followed by the JSON text |
| ViseServer.JsonResponseReadsBack | src/server/ViseServer.cc:264-270 | the JSON response reads back as status, JSON content type, length and keep-alive lines, and its Content-Length equals the JSON length |
| ViseServer.JsonResponseContent | src/server/ViseServer.cc:264-270 | for JSON text that contains no blank line and does not start with CRLF, the server's own content extraction recovers it from a JSON response |
| ViseServer.LengthHeader | src/server/ViseServer.cc:256 | the Content-Length header parses back to the length of the body |
| Text.DecimalRoundTrip | src/server/ViseServer.cc:256 | the decimal text written for a length parses back to that length |
| ViseServer.ParsePacket | src/server/ViseServer.cc:297-305 | a packet the reader accepts is exactly the message or status packet built from its sender and payload, and the sender is space-free |
| ViseServer.MessagePacket | src/server/ViseServer.cc:297-300 | a space-free sender is exactly the text before the packet's first space, and the message is the packet's tail |
| ViseServer.StatusPacket | src/server/ViseServer.cc:302-305 | a space-free sender is exactly the text before the packet's first space, and the status is the packet's tail |
| ViseServer.MessagePacketRoundTrip | src/server/ViseServer.cc:297-300 | a message packet with a space-free sender reads back as that sender, kind message_panel and that message |
| ViseServer.StatusPacketRoundTrip | src/server/ViseServer.cc:302-305 | a status packet with a space-free sender reads back as that sender, kind status and that status |
| ViseServer.PacketsDistinct | src/server/ViseServer.cc:297-305 | no message packet equals a status packet when senders are space-free |
| SearchEngineManager.Init | src/vise/search_engine_manager.cc:12-34 | the five stage names, all distinct and all under the `relja_retrival:` prefix, with their descriptions in order; an empty index state, no indexing thread running, auto-load on, and the data directory set; the other fields are unchanged |
| SearchEngineManager.ClearIndexState | src/vise/search_engine_manager.cc:148-156 | step counters emptied; a state is tracked for exactly the listed stage names, each `not_started`; nothing else changes |
| SearchEngineManager.MarkNotStartedSize | src/vise/search_engine_manager.cc:153-155 | with distinct stage names, the cleared state map has one entry per stage |
| SearchEngineManager.InitThenClearTracksFiveStages | src/vise/search_engine_manager.cc:148-156 | after init, clearing tracks exactly five stages, all `not_started` |
| SearchEngineManager.BeginIndexing | src/vise/search_engine_manager.cc:158-163 | indexing is marked running for the named engine and version, every listed stage is reset to `not_started` with empty counters, and the stage lists, data directory and auto-load flag are unchanged |
| SearchEngineManager.ProcessCmd | src/vise/search_engine_manager.cc:36-146 | `init` on an existing engine answers 400 with the already-exists error and creates nothing; otherwise it answers 200 with the created reply echoing name and version, and asks for the engine to be created with the request body as description. `index_start` while indexing runs answers 400 naming the engine being indexed; otherwise it answers 200 `indexing started` and asks for the thread when the spawn succeeds, or 400 with the exception text when it throws. `index_status` answers 200 exactly when a state is tracked, and then (with paired lists) its payload is the status array and the next state is the one the status loop's `operator[]` reads leave behind; 400 `not started` with no state change otherwise (whether or not the lists are paired), and fails like `.at` when the descriptions are shorter than the names. `engine_exists` always answers 200 with the yes reply exactly when the engine exists and the no reply exactly when it does not. Every known command sets the JSON content type and keeps the caller's other header fields; any other command only sets status 400; only `index_status` changes the state |
| SearchEngineManager.CreatedPayloadEchoes | src/vise/search_engine_manager.cc:60-67 | the created reply determines the engine name and version it echoes: two engines with quote-free names get the same reply only if name and version agree |
| SearchEngineManager.AfterStatusRead | src/vise/search_engine_manager.cc:103-118 | reading the status inserts every stage name into the state map (read as empty when missing); both step-counter maps gain a key exactly for the stages in `progress`, keep their old values and read new keys as empty; nothing else changes |
| SearchEngineManager.StatusPayload | src/vise/search_engine_manager.cc:102-119 | the text the status loop writes, commas and brackets included, is exactly the JSON array encoding of the stage objects |
| SearchEngineManager.StatusElementsAreObjects | src/vise/search_engine_manager.cc:103-118 | from any stage on, the loop's comma-unless-first output is the comma-separated run of the remaining stage objects |
| SearchEngineManager.StatusPayloadReadsBack | src/vise/search_engine_manager.cc:102-119 | for plain stage text, the status payload reads back as a JSON array with exactly one object per stage, in order |
| SearchEngineManager.StageObjectFields | src/vise/search_engine_manager.cc:110-117 | each stage object carries the quoted name, description and state, and has step counters exactly when the state is `progress` |
| SearchEngineManager.StatusWhileNotStarted | src/vise/search_engine_manager.cc:98-123 | when every stage is `not_started`, the description list is at least as long as the name list, and the stage texts are free of `,`, `{` and `}`, the status is 200 and an array with one object per stage, each with state `not_started` and no step counters |
| SearchEngineManager.StatusAfterIndexingBegins | src/vise/search_engine_manager.cc:158-163 | right after indexing begins following init, the status array has five objects, all `not_started` and without step counters |
| SearchEngineManager.BegunStates | src/vise/search_engine_manager.cc:158-163 | after init and the start of indexing, exactly the five listed stages are tracked, each as `not_started` |
| FlatJson.ArrayRoundTrip | src/vise/search_engine_manager.cc:102-119 | reading an array written from objects with plain keys and values gives back exactly those objects |
| FlatJson.Lookup | src/vise/search_engine_manager.cc:110-116 | a value is found exactly when some member has the key, and it is the value of the first member with that key |
| FileAttributes.ExtractFilenameParts | src/ui/web/file_attributes_15cbt.py:121-153 | the folio is never empty; with two underscores neither id contains one; in the fallback format the folio is `_UNKNOWN_` and the MEI id has at most seven characters |
| FileAttributes.TwoUnderscoreFormat | src/ui/web/file_attributes_15cbt.py:129-135 | `istc_mei_folio.ext` with underscore-free parts and a dot-free extension parses back to exactly those ids and folio (`_UNKNOWN_` for an empty folio) |
| FileAttributes.TwoUnderscoreCount | src/ui/web/file_attributes_15cbt.py:129 | a filename built as `istc_mei_folio.ext` from underscore-free parts has exactly two underscores, so it takes the first branch |
| FileAttributes.SecondUnderscore | src/ui/web/file_attributes_15cbt.py:131-132 | with two underscores both searches succeed, and the second finds a position after the first |
| FileAttributes.UnderscoreSpaceFormat | src/ui/web/file_attributes_15cbt.py:137-143 | `istc_mei folio.ext` with underscore- and space-free parts parses back to exactly those ids and folio |
| FileAttributes.UnderscoreSpaceCount | src/ui/web/file_attributes_15cbt.py:137 | a filename built as `istc_mei folio.ext` from underscore- and space-free parts has one underscore and one space, so it takes the second branch |
| FileAttributes.SpaceFirstCount | src/ui/web/file_attributes_15cbt.py:137 | a space before the single underscore also takes the second branch |
| FileAttributes.SeparatedRoundTrip | src/ui/web/file_attributes_15cbt.py:131-143 | the two separated formats share one parse: the id before the first underscore, the id up to the separator, the folio up to the last dot |
| FileAttributes.SpaceBeforeUnderscore | src/ui/web/file_attributes_15cbt.py:137-143 | when the space comes before the single underscore, the second search fails with -1, so the MEI id is the end of the filename minus its last character and the folio is everything before the last dot |
| FileAttributes.OtherPartsAfterUnderscore | src/ui/web/file_attributes_15cbt.py:146-149 | the fallback cut: the ISTC id is the text before the first underscore, the MEI id at most seven characters after it, and the folio `_UNKNOWN_` |
| FileAttributes.OtherFormatWithUnderscore | src/ui/web/file_attributes_15cbt.py:144-152 | in any other format with an underscore, the ISTC id is the text before it, the MEI id is at most seven characters after it, and the folio is `_UNKNOWN_` |
| FileAttributes.NoUnderscore | src/ui/web/file_attributes_15cbt.py:144-152 | with no underscore, the -1 search result makes the ISTC id the filename minus its last character and the MEI id its first seven characters |
| FileAttributes.DotlessFolio | src/ui/web/file_attributes_15cbt.py:128-143 | with no dot in the filename, the -1 from `rfind` ends the folio slice one character before the end, so the folio is the text after the separator minus its last character, or `_UNKNOWN_` when that is empty; the ids are still cut at the separators |
| FileAttributes.DotBeforeFolio | src/ui/web/file_attributes_15cbt.py:128-143 | when the last dot lies in the ISTC or MEI id, the folio slice ends before it begins, so the folio is `_UNKNOWN_` and the ids are still cut at the separators |
| FileAttributes.TwoUnderscoreNoDot | src/ui/web/file_attributes_15cbt.py:128-135 | `istc_mei_rest` with no dot parses to istc, mei and `rest` minus its last character (`a_b_cd` gives `a`, `b`, `c`) |
| FileAttributes.TwoUnderscoreDotEarly | src/ui/web/file_attributes_15cbt.py:128-135 | `istc_mei_rest` whose last dot is before the second underscore (such as `a.b_c_d`) parses to istc, mei and `_UNKNOWN_` |
| FileAttributes.UnderscoreSpaceTailCount | src/ui/web/file_attributes_15cbt.py:129-137 | `istc_mei rest` with underscore- and space-free parts has one underscore and one space, so it takes the second format's branch |
| FileAttributes.UnderscoreSpaceNoDot | src/ui/web/file_attributes_15cbt.py:128-143 | `istc_mei rest` with no dot parses to istc, mei and `rest` minus its last character (`a_b cd` gives `a`, `b`, `c`) |
| FileAttributes.UnderscoreSpaceDotEarly | src/ui/web/file_attributes_15cbt.py:128-143 | `istc_mei rest` whose last dot is before the space (such as `a.b_c d`) parses to istc, mei and `_UNKNOWN_` |
| FileAttributes.PyFind | src/ui/web/file_attributes_15cbt.py:131-132 | returns the first matching index at or after the clamped start, or -1 when there is none |
| FileAttributes.PyRFind | src/ui/web/file_attributes_15cbt.py:128 | returns the last matching index, or -1 when there is none |
| FileAttributes.PySlice | src/ui/web/file_attributes_15cbt.py:133-135 | the slice runs between the two normalised bounds (negative ones counted from the end, large ones clamped), so `s[0:-1]` drops the last character; crossed bounds give the empty string |
| FileAttributes.SliceBound | src/ui/web/file_attributes_15cbt.py:133-135 | a slice bound is clamped into the string: negative bounds count from the end, too-large ones stop at the length |
| FileAttributes.OrUnknown | src/ui/web/file_attributes_15cbt.py:151-152 | an empty folio becomes `_UNKNOWN_` and any other is kept, so the result is never empty |
| FileAttributes.IndexRows | src/ui/web/file_attributes_15cbt.py:93-101 | one row per file, numbered by position and holding that file's name; every file in the fallback format lands in folio group `_` |
| FileAttributes.RowOf | src/ui/web/file_attributes_15cbt.py:94-101 | the folio is never empty, so `folio[0]` is always defined; an unknown folio, and so every fallback-format file, lands in folio group `_` |

## Left out

- `create_search_engine` and the real `search_engine_exists`. The first has an empty body and the second inspects the file system. The existence check is a function parameter, and creation is recorded as a requested effect.
- The indexing thread itself. Spawning it (and the exception a failed spawn reports) is a parameter, and the spawn is recorded as a requested effect. Its body is modelled up to the point the source still runs (`BeginIndexing`); the training pipeline after it is commented out in the source.
- The race on the running flag between the request thread and the indexing thread: the model is sequential.
- The step-counter maps are taken as maps from names to text. This is a modelling choice: the header that declares them is not part of this model, and the only writes to them are in commented-out code.
- For an unhandled command the source sets only status 400. The model keeps the rest of the caller's response as it was.
- Sockets, `boost::asio` writes, console logging and the message queue's synchronisation are left out. Packets and responses are modelled as the strings handed to them.
- `SendHttpResponse` and the not-found response write a `Date` header taken from the clock, so they are not part of this model. The redirect response has no date; it is left out because it only writes a status line and a `Location` built from the server's URL prefix, which is configuration outside the modelled core.
- Image I/O, engine load/unload, querying and the admin commands of the manager are outside the modelled core.
- The web front end's pandas merge with a CSV of attributes, and its HTML and CherryPy handlers, are left out. Only filename parsing and the index rows built from it are modelled.
- ViseServer.ExtractHttpResource: requires at least two spaces. Without them the source's `npos` arithmetic wraps around an unsigned integer, and that case is not modelled.
- ViseServer.ExtractHttpContent: requires a blank line in the request. Without one the source adds 4 to `npos` and takes a substring from a wrapped offset; that case is not modelled.
- ViseServer.SplitString: positions are unbounded integers. The source's `unsigned int` index would wrap only on strings longer than 2^32 characters.
- ViseServer.ContentOfMessage: proved only for a body that contains no blank line and does not start with CRLF, because the source cuts at the last blank line (`rfind`), so such a body is not returned whole.
- ViseServer.RawResponseContent: proved only for a body with no blank line that does not start with CRLF, for the same reason as `ContentOfMessage`.
- ViseServer.JsonResponseContent: proved only for JSON text with no blank line that does not start with CRLF, for the same reason as `ContentOfMessage`.
- SearchEngineManager.StatusWhileNotStarted: proved only when the description list is at least as long as the name list (otherwise the source throws at `.at`, which `ProcessCmd` models as `OutOfRange`) and when the stage texts are free of `,`, `{` and `}` (otherwise the unescaped array is not read back, as for `FlatJson.ArrayRoundTrip`).
- FlatJson.ArrayRoundTrip: the round trip is proved only for keys and values free of `,`, `{`, `}` (and `:` in keys). The manager writes text without escaping, so other text is not read back faithfully.
- SearchEngineManager.ProcessCmd: when `.at` throws part-way through the status loop, the outcome is only `OutOfRange`. The map entries the source has already inserted for earlier stages are not kept.
- Text: a Dafny `char` stands for one byte (one code unit) of the source's strings. The server's `std::string` and the Python 2 `str` that the parser slices count bytes, so `Content-Length` and the seven-character MEI id are byte counts in the source. For non-ASCII text the model's character counts are not byte counts, and UTF-8 encoding is not modelled.

=== FILE: filename.dfy ===
/** The scan-filename parser of the 15cBT web front end. A filename such as
    `ia00152000_00202205_i2v.jpg` or `ia00149000_00200293 a2r.jpg` names a
    book (ISTC id), a copy (MEI id) and a folio. The parser is written in
    Python, so the search results -1 and the negative slice bounds they turn
    into are modelled exactly: a missing separator does not fail, it shifts
    a slice. */
module FileAttributes {
  import opened Text

  // ---------------------------------------------------------------------
  // Python string primitives

  /** Where a slice bound `i` lands in a text of length `n`: negative bounds
      count from the end, and everything is clamped to `0..n`. */
  function SliceBound(i: int, n: nat): (r: nat)
    ensures r <= n
    ensures 0 <= i <= n ==> r == i
    ensures n < i ==> r == n
    ensures i < 0 && 0 <= i + n ==> r == i + n
    ensures i + n < 0 ==> r == 0
  {
    if i < 0 then (if i + n < 0 then 0 else i + n)
    else if i > n then n
    else i
  }

  /** Python `s[a:b]`. */
  function PySlice(s: string, a: int, b: int): (r: string)
    ensures |r| <= |s|
    ensures 0 <= a <= b <= |s| ==> r == s[a..b]
    ensures SliceBound(b, |s|) <= SliceBound(a, |s|) ==> r == []
    ensures SliceBound(a, |s|) < SliceBound(b, |s|) ==> r == s[SliceBound(a, |s|)..SliceBound(b, |s|)]
  {
    var lo := SliceBound(a, |s|);
    var hi := SliceBound(b, |s|);
    if lo < hi then s[lo..hi] else []
  }

  /** Python `s.find(c, start)`: the first `c` at or after `start`, or -1. */
  function PyFind(s: string, c: char, start: int): (r: int)
    ensures -1 <= r < |s|
    ensures r >= 0 ==> SliceBound(start, |s|) <= r && s[r] == c
    ensures r >= 0 ==> forall i :: SliceBound(start, |s|) <= i < r ==> s[i] != c
    ensures r == -1 ==> forall i :: SliceBound(start, |s|) <= i < |s| ==> s[i] != c
  {
    match IndexOfFrom(s, c, SliceBound(start, |s|))
    case None => -1
    case Some(i) => i
  }

  /** Python `s.rfind(c)`: the last `c`, or -1. */
  function PyRFind(s: string, c: char): (r: int)
    ensures -1 <= r < |s|
    ensures r >= 0 ==> s[r] == c && c !in s[r + 1..]
    ensures r == -1 ==> c !in s
  {
    match LastIndexOf(s, c)
    case None => -1
    case Some(i) => i
  }

  // ---------------------------------------------------------------------
  // The parser

  /** The folio recorded when none can be read from the filename. */
  const Unknown: string := "_UNKNOWN_"

  datatype FilenameParts = FilenameParts(istcId: string, meiId: string, folio: string)

  /** `folio`, or the placeholder when it is empty. */
  function OrUnknown(folio: string): (r: string)
    ensures |r| > 0
    ensures folio != [] ==> r == folio
    ensures folio == [] ==> r == Unknown
  {
    if folio == [] then Unknown else folio
  }

  /** `istc_mei folio.ext`: one underscore and one space. */
  predicate UnderscoreAndSpace(filename: string)
  {
    Count(filename, '_') == 1 && Count(filename, ' ') == 1
  }

  /** Splits a scan filename into ISTC id, MEI id and folio. Two underscores
      select `istc_mei_folio.ext`; one underscore and one space select
      `istc_mei folio.ext`; anything else keeps at most seven characters
      after the first underscore as the MEI id and no folio. */
  function ExtractFilenameParts(filename: string): (r: FilenameParts)
    ensures |r.folio| > 0
    ensures Count(filename, '_') == 2 ==> '_' !in r.istcId && '_' !in r.meiId
    ensures Count(filename, '_') != 2 && !UnderscoreAndSpace(filename) ==>
              r.folio == Unknown && |r.meiId| <= 7
  {
    if Count(filename, '_') == 2 then
      TwoUnderscoreIdsClean(filename);
      SeparatedParts(filename, '_')
    else if UnderscoreAndSpace(filename) then SeparatedParts(filename, ' ')
    else OtherParts(filename)
  }

  /** The two named shapes: ISTC id up to the first underscore, MEI id up to
      the next `sep` after it, folio up to the last dot. */
  function SeparatedParts(filename: string, sep: char): (r: FilenameParts)
    ensures |r.folio| > 0
  {
    var dot := PyRFind(filename, '.');
    var s1 := PyFind(filename, '_', 0);
    var s2 := PyFind(filename, sep, s1 + 1);
    PartsAt(filename, s1, s2, dot)
  }

  /** The three slices cut at the two separator positions and the dot. */
  function PartsAt(filename: string, s1: int, s2: int, dot: int): (r: FilenameParts)
    ensures |r.folio| > 0
  {
    FilenameParts(PySlice(filename, 0, s1), PySlice(filename, s1 + 1, s2),
                  OrUnknown(PySlice(filename, s2 + 1, dot)))
  }

  /** Every other shape: no folio. */
  function OtherParts(filename: string): (r: FilenameParts)
    ensures r.folio == Unknown && |r.meiId| <= 7
  {
    var s1 := PyFind(filename, '_', 0);
    FilenameParts(PySlice(filename, 0, s1), PySlice(filename, s1 + 1, s1 + 8), Unknown)
  }

  /** With two underscores, the ISTC and MEI ids lie strictly between them
      and so contain none. */
  lemma TwoUnderscoreIdsClean(filename: string)
    requires Count(filename, '_') == 2
    ensures var r := SeparatedParts(filename, '_');
            '_' !in r.istcId && '_' !in r.meiId
  {
    SecondUnderscore(filename);
    var s1 := PyFind(filename, '_', 0);
    var s2 := PyFind(filename, '_', s1 + 1);
    var dot := PyRFind(filename, '.');
    SeparatedPartsAt(filename, '_', s1, s2, dot);
    NoneBetween(filename, '_', 0, s1);
    NoneBetween(filename, '_', s1 + 1, s2);
  }

  /** A slice whose positions all differ from `c` does not contain it. */
  lemma NoneBetween(f: string, c: char, lo: nat, hi: nat)
    requires lo <= hi <= |f|
    requires forall i :: lo <= i < hi ==> f[i] != c
    ensures c !in PySlice(f, lo, hi)
  {
    assert forall k :: 0 <= k < hi - lo ==> f[lo..hi][k] == f[lo + k];
  }

  /** With two underscores both searches succeed, in order. */
  lemma SecondUnderscore(filename: string)
    requires Count(filename, '_') == 2
    ensures var s1 := PyFind(filename, '_', 0);
            0 <= s1 < PyFind(filename, '_', s1 + 1)
  {
    SecondFound(filename, '_');
    var first := IndexOf(filename, '_').value;
    IndexOfFromZero(filename, '_');
  }

  /** The first `c` at or after `start` is at `p`. */
  lemma PyFindAt(f: string, c: char, start: nat, p: nat)
    requires start <= p < |f| && f[p] == c && c !in f[start..p]
    ensures PyFind(f, c, start) == p
  {
    assert forall i :: start <= i < p ==> f[i] == f[start..p][i - start];
  }

  /** No `c` at or after `start`. */
  lemma PyFindNone(f: string, c: char, start: nat)
    requires start <= |f| && c !in f[start..]
    ensures PyFind(f, c, start) == -1
  {
    assert forall i :: start <= i < |f| ==> f[i] == f[start..][i - start];
  }

  /** The last `c` is at `p`. */
  lemma PyRFindAt(f: string, c: char, p: nat)
    requires p < |f| && f[p] == c && c !in f[p + 1..]
    ensures PyRFind(f, c) == p
  {
    assert forall i :: p < i < |f| ==> f[i] == f[p + 1..][i - p - 1];
  }

  // ---------------------------------------------------------------------
  // The three shapes

  /** Where the pieces of `p0 c1 p1 c2 p2 c3 p3` sit. */
  lemma Layout(p0: string, c1: char, p1: string, c2: char, p2: string, c3: char, p3: string)
    ensures var f := p0 + [c1] + p1 + [c2] + p2 + [c3] + p3;
            var e1 := |p0|;
            var e2 := e1 + 1 + |p1|;
            var e3 := e2 + 1 + |p2|;
            && |f| == e3 + 1 + |p3|
            && f[..e1] == p0 && f[e1] == c1
            && f[e1 + 1..e2] == p1 && f[e2] == c2
            && f[e2 + 1..e3] == p2 && f[e3] == c3
            && f[e3 + 1..] == p3
            && f[..e3] == p0 + [c1] + p1 + [c2] + p2
            && f[e1 + 1..] == p1 + [c2] + p2 + [c3] + p3
  {
    var a := p0 + [c1] + p1;
    var b := a + [c2] + p2;
    var f := b + [c3] + p3;
    assert f[..|b|] == b;
    assert b[..|a|] == a;
    assert a[..|p0|] == p0;
    assert f[|b| + 1..] == p3;
    assert b[|a| + 1..] == p2;
    assert a[|p0| + 1..] == p1;
    assert f[|p0| + 1..] == p1 + [c2] + p2 + [c3] + p3;
  }

  /** Occurrences of `c` in `a + [d] + b`. */
  lemma CountAround(a: string, d: char, b: string, c: char)
    ensures Count(a + [d] + b, c) == Count(a, c) + (if d == c then 1 else 0) + Count(b, c)
  {
    CountAppend(a + [d], b, c);
    CountAppend(a, [d], c);
    assert [d][..0] == [];
  }

  /** `istc_mei_folio.ext` has exactly two underscores. */
  lemma TwoUnderscoreCount(istc: string, mei: string, folio: string, ext: string)
    requires '_' !in istc && '_' !in mei && '_' !in folio && '_' !in ext
    ensures Count(istc + "_" + mei + "_" + folio + "." + ext, '_') == 2
  {
    CountZero(istc, '_');
    CountZero(mei, '_');
    CountZero(folio, '_');
    CountZero(ext, '_');
    CountAround(istc, '_', mei, '_');
    CountAround(istc + "_" + mei, '_', folio, '_');
    CountAround(istc + "_" + mei + "_" + folio, '.', ext, '_');
  }

  /** Cutting `istc_mei sep folio.ext` at the two separators and the dot
      gives back the three parts. */
  lemma PartsAtLayout(f: string, istc: string, mei: string, sep: char, folio: string, ext: string,
                      s1: int, s2: int, dot: int)
    requires f == istc + "_" + mei + [sep] + folio + "." + ext
    requires s1 == |istc| && s2 == s1 + 1 + |mei| && dot == s2 + 1 + |folio|
    ensures PartsAt(f, s1, s2, dot) == FilenameParts(istc, mei, OrUnknown(folio))
  {
    Layout(istc, '_', mei, sep, folio, '.', ext);
  }

  /** The named-shape branch cuts where its three searches land. */
  lemma SeparatedPartsAt(f: string, sep: char, s1: int, s2: int, dot: int)
    requires PyFind(f, '_', 0) == s1 && PyFind(f, sep, s1 + 1) == s2 && PyRFind(f, '.') == dot
    ensures SeparatedParts(f, sep) == PartsAt(f, s1, s2, dot)
  {
  }

  /** Where the searches of the named shapes land. */
  lemma SeparatedSearches(f: string, istc: string, mei: string, sep: char, folio: string, ext: string,
                          s1: int, s2: int, dot: int)
    requires f == istc + "_" + mei + [sep] + folio + "." + ext
    requires s1 == |istc| && s2 == s1 + 1 + |mei| && dot == s2 + 1 + |folio|
    requires '_' !in istc && sep !in mei
    requires '.' !in ext
    ensures PyFind(f, '_', 0) == s1 && PyFind(f, sep, s1 + 1) == s2 && PyRFind(f, '.') == dot
  {
    Layout(istc, '_', mei, sep, folio, '.', ext);
    PyFindAt(f, '_', 0, s1);
    PyFindAt(f, sep, s1 + 1, s2);
    PyRFindAt(f, '.', dot);
  }

  /** Reading `istc_mei sep folio.ext` back through the named-shape branch. */
  lemma SeparatedRoundTrip(istc: string, mei: string, sep: char, folio: string, ext: string)
    requires '_' !in istc && sep !in mei
    requires '.' !in ext
    ensures SeparatedParts(istc + "_" + mei + [sep] + folio + "." + ext, sep)
            == FilenameParts(istc, mei, OrUnknown(folio))
  {
    var f := istc + "_" + mei + [sep] + folio + "." + ext;
    var s1 := |istc|;
    var s2 := s1 + 1 + |mei|;
    var dot := s2 + 1 + |folio|;
    SeparatedSearches(f, istc, mei, sep, folio, ext, s1, s2, dot);
    SeparatedPartsAt(f, sep, s1, s2, dot);
    PartsAtLayout(f, istc, mei, sep, folio, ext, s1, s2, dot);
  }

  /** `istc_mei_folio.ext`: the three parts are read back exactly. */
  lemma TwoUnderscoreFormat(istc: string, mei: string, folio: string, ext: string)
    requires '_' !in istc && '_' !in mei && '_' !in folio && '_' !in ext
    requires '.' !in ext
    ensures ExtractFilenameParts(istc + "_" + mei + "_" + folio + "." + ext)
            == FilenameParts(istc, mei, OrUnknown(folio))
  {
    TwoUnderscoreCount(istc, mei, folio, ext);
    SeparatedRoundTrip(istc, mei, '_', folio, ext);
  }

  /** `istc_mei folio.ext` has one underscore and one space. */
  lemma UnderscoreSpaceCount(istc: string, mei: string, folio: string, ext: string)
    requires '_' !in istc && '_' !in mei && '_' !in folio && '_' !in ext
    requires ' ' !in istc && ' ' !in mei && ' ' !in folio && ' ' !in ext
    ensures UnderscoreAndSpace(istc + "_" + mei + " " + folio + "." + ext)
  {
    var a := istc + "_" + mei;
    var b := a + " " + folio;
    CountZero(istc, '_');
    CountZero(mei, '_');
    CountZero(folio, '_');
    CountZero(ext, '_');
    CountZero(istc, ' ');
    CountZero(mei, ' ');
    CountZero(folio, ' ');
    CountZero(ext, ' ');
    CountAround(istc, '_', mei, '_');
    CountAround(a, ' ', folio, '_');
    CountAround(b, '.', ext, '_');
    CountAround(istc, '_', mei, ' ');
    CountAround(a, ' ', folio, ' ');
    CountAround(b, '.', ext, ' ');
  }

  /** `istc_mei folio.ext`: the three parts are read back exactly. */
  lemma UnderscoreSpaceFormat(istc: string, mei: string, folio: string, ext: string)
    requires '_' !in istc && '_' !in mei && '_' !in folio && '_' !in ext
    requires ' ' !in istc && ' ' !in mei && ' ' !in folio && ' ' !in ext
    requires '.' !in ext
    ensures ExtractFilenameParts(istc + "_" + mei + " " + folio + "." + ext)
            == FilenameParts(istc, mei, OrUnknown(folio))
  {
    UnderscoreSpaceCount(istc, mei, folio, ext);
    SeparatedRoundTrip(istc, mei, ' ', folio, ext);
  }

  /** Where the pieces of `p0 c1 p1 c2 p2` sit. */
  lemma ShortLayout(p0: string, c1: char, p1: string, c2: char, p2: string)
    ensures var f := p0 + [c1] + p1 + [c2] + p2;
            var e1 := |p0|;
            var e2 := e1 + 1 + |p1|;
            && |f| == e2 + 1 + |p2|
            && f[..e1] == p0 && f[e1] == c1
            && f[e1 + 1..e2] == p1 && f[e2] == c2
            && f[e2 + 1..] == p2
  {
    var a := p0 + [c1] + p1;
    var f := a + [c2] + p2;
    assert f[..|a|] == a;
    assert a[..|p0|] == p0;
    assert f[|a| + 1..] == p2;
    assert a[|p0| + 1..] == p1;
  }

  /** The two separator searches on `istc_mei sep rest` land just after the
      ISTC id and just after the MEI id, whatever `rest` holds. */
  lemma SeparatorSearches(f: string, istc: string, mei: string, sep: char, rest: string,
                          s1: int, s2: int)
    requires f == istc + "_" + mei + [sep] + rest
    requires s1 == |istc| && s2 == s1 + 1 + |mei|
    requires '_' !in istc && sep !in mei
    ensures PyFind(f, '_', 0) == s1 && PyFind(f, sep, s1 + 1) == s2
  {
    ShortLayout(istc, '_', mei, sep, rest);
    PyFindAt(f, '_', 0, s1);
    PyFindAt(f, sep, s1 + 1, s2);
  }

  /** No dot anywhere: `rfind` answers -1, which as a slice end means "up to
      the last character", so the folio is the text after the separator
      minus its last character (`_UNKNOWN_` when that leaves nothing). */
  lemma DotlessFolio(istc: string, mei: string, sep: char, rest: string)
    requires '_' !in istc && sep !in mei
    requires '.' !in istc && '.' !in mei && '.' !in rest && sep != '.'
    ensures SeparatedParts(istc + "_" + mei + [sep] + rest, sep)
            == FilenameParts(istc, mei, OrUnknown(if |rest| == 0 then [] else rest[..|rest| - 1]))
  {
    var f := istc + "_" + mei + [sep] + rest;
    var s1 := |istc|;
    var s2 := s1 + 1 + |mei|;
    SeparatorSearches(f, istc, mei, sep, rest, s1, s2);
    NoDot(istc, mei, sep, rest);
    SeparatedPartsAt(f, sep, s1, s2, -1);
    IdCuts(f, istc, mei, sep, rest, s1, s2);
    TailToMinusOne(f, s2 + 1, rest);
  }

  /** On `istc_mei sep rest`, the two id slices and the tail after the
      separator are the pieces themselves. */
  lemma IdCuts(f: string, istc: string, mei: string, sep: char, rest: string, s1: int, s2: int)
    requires f == istc + "_" + mei + [sep] + rest
    requires s1 == |istc| && s2 == s1 + 1 + |mei|
    ensures PySlice(f, 0, s1) == istc && PySlice(f, s1 + 1, s2) == mei
    ensures s2 + 1 <= |f| && f[s2 + 1..] == rest
  {
    ShortLayout(istc, '_', mei, sep, rest);
  }

  lemma NoDot(istc: string, mei: string, sep: char, rest: string)
    requires '.' !in istc && '.' !in mei && '.' !in rest && sep != '.'
    ensures PyRFind(istc + "_" + mei + [sep] + rest, '.') == -1
  {
    assert '.' !in istc + "_" + mei + [sep] + rest;
  }

  /** The slice from `lo` to -1 is the tail after `lo` without its last
      character. */
  lemma TailToMinusOne(f: string, lo: nat, rest: string)
    requires lo <= |f| && f[lo..] == rest
    ensures PySlice(f, lo, -1) == if |rest| == 0 then [] else rest[..|rest| - 1]
  {
    if |rest| > 0 {
      assert f[lo..|f| - 1] == rest[..|rest| - 1];
    }
  }

  /** The last dot sits in the ISTC or MEI id: the folio slice ends before
      it starts, so the folio is `_UNKNOWN_` while both ids are still cut at
      the separators. */
  lemma DotBeforeFolio(istc: string, mei: string, sep: char, rest: string)
    requires '_' !in istc && sep !in mei
    requires '.' in istc || '.' in mei
    requires '.' !in rest && sep != '.'
    ensures SeparatedParts(istc + "_" + mei + [sep] + rest, sep) == FilenameParts(istc, mei, Unknown)
  {
    var f := istc + "_" + mei + [sep] + rest;
    var s1 := |istc|;
    var s2 := s1 + 1 + |mei|;
    SeparatorSearches(f, istc, mei, sep, rest, s1, s2);
    ShortLayout(istc, '_', mei, sep, rest);
    assert '.' in f;
    var dot := PyRFind(f, '.');
    assert dot < s2;
    SeparatedPartsAt(f, sep, s1, s2, dot);
  }

  /** `istc_mei_rest` has exactly two underscores. */
  lemma TwoUnderscoreTailCount(istc: string, mei: string, rest: string)
    requires '_' !in istc && '_' !in mei && '_' !in rest
    ensures Count(istc + "_" + mei + "_" + rest, '_') == 2
  {
    CountZero(istc, '_');
    CountZero(mei, '_');
    CountZero(rest, '_');
    CountAround(istc, '_', mei, '_');
    CountAround(istc + "_" + mei, '_', rest, '_');
  }

  /** `istc_mei_rest` with no dot at all, such as `a_b_cd`: the folio is
      `rest` minus its last character (`a_b_cd` gives `a`, `b`, `c`). */
  lemma TwoUnderscoreNoDot(istc: string, mei: string, rest: string)
    requires '_' !in istc && '_' !in mei && '_' !in rest
    requires '.' !in istc && '.' !in mei && '.' !in rest
    ensures ExtractFilenameParts(istc + "_" + mei + "_" + rest)
            == FilenameParts(istc, mei, OrUnknown(if |rest| == 0 then [] else rest[..|rest| - 1]))
  {
    TwoUnderscoreTailCount(istc, mei, rest);
    DotlessFolio(istc, mei, '_', rest);
  }

  /** `istc_mei_rest` whose last dot lies before the second underscore, such
      as `a.b_c_d`: the folio is `_UNKNOWN_`. */
  lemma TwoUnderscoreDotEarly(istc: string, mei: string, rest: string)
    requires '_' !in istc && '_' !in mei && '_' !in rest
    requires '.' in istc || '.' in mei
    requires '.' !in rest
    ensures ExtractFilenameParts(istc + "_" + mei + "_" + rest) == FilenameParts(istc, mei, Unknown)
  {
    TwoUnderscoreTailCount(istc, mei, rest);
    DotBeforeFolio(istc, mei, '_', rest);
  }

  /** `istc_mei rest` has one underscore and one space. */
  lemma UnderscoreSpaceTailCount(istc: string, mei: string, rest: string)
    requires '_' !in istc && '_' !in mei && '_' !in rest
    requires ' ' !in istc && ' ' !in mei && ' ' !in rest
    ensures Count(istc + "_" + mei + " " + rest, '_') == 1
    ensures UnderscoreAndSpace(istc + "_" + mei + " " + rest)
  {
    var a := istc + "_" + mei;
    CountZero(istc, '_');
    CountZero(mei, '_');
    CountZero(rest, '_');
    CountZero(istc, ' ');
    CountZero(mei, ' ');
    CountZero(rest, ' ');
    CountAround(istc, '_', mei, '_');
    CountAround(a, ' ', rest, '_');
    CountAround(istc, '_', mei, ' ');
    CountAround(a, ' ', rest, ' ');
  }

  /** `istc_mei rest` with no dot at all, such as `a_b cd`: the folio is
      `rest` minus its last character (`a_b cd` gives `a`, `b`, `c`). */
  lemma UnderscoreSpaceNoDot(istc: string, mei: string, rest: string)
    requires '_' !in istc && '_' !in mei && '_' !in rest
    requires ' ' !in istc && ' ' !in mei && ' ' !in rest
    requires '.' !in istc && '.' !in mei && '.' !in rest
    ensures ExtractFilenameParts(istc + "_" + mei + " " + rest)
            == FilenameParts(istc, mei, OrUnknown(if |rest| == 0 then [] else rest[..|rest| - 1]))
  {
    UnderscoreSpaceTailCount(istc, mei, rest);
    DotlessFolio(istc, mei, ' ', rest);
  }

  /** `istc_mei rest` whose last dot lies before the space, such as
      `a.b_c d`: the folio is `_UNKNOWN_`. */
  lemma UnderscoreSpaceDotEarly(istc: string, mei: string, rest: string)
    requires '_' !in istc && '_' !in mei && '_' !in rest
    requires ' ' !in istc && ' ' !in mei && ' ' !in rest
    requires '.' in istc || '.' in mei
    requires '.' !in rest
    ensures ExtractFilenameParts(istc + "_" + mei + " " + rest) == FilenameParts(istc, mei, Unknown)
  {
    UnderscoreSpaceTailCount(istc, mei, rest);
    DotBeforeFolio(istc, mei, ' ', rest);
  }

  /** `x y_d.ext` has one underscore and one space. */
  lemma SpaceFirstCount(x: string, y: string, d: string, ext: string)
    requires '_' !in x && '_' !in y && '_' !in d && '_' !in ext
    requires ' ' !in x && ' ' !in y && ' ' !in d && ' ' !in ext
    ensures Count(x + " " + y + "_" + d + "." + ext, '_') == 1
    ensures UnderscoreAndSpace(x + " " + y + "_" + d + "." + ext)
  {
    var a := x + " " + y;
    var b := a + "_" + d;
    CountZero(x, '_');
    CountZero(y, '_');
    CountZero(d, '_');
    CountZero(ext, '_');
    CountZero(x, ' ');
    CountZero(y, ' ');
    CountZero(d, ' ');
    CountZero(ext, ' ');
    CountAround(x, ' ', y, '_');
    CountAround(a, '_', d, '_');
    CountAround(b, '.', ext, '_');
    CountAround(x, ' ', y, ' ');
    CountAround(a, '_', d, ' ');
    CountAround(b, '.', ext, ' ');
  }

  /** Where the searches land on `x y_d.ext`: the space search from after
      the underscore finds nothing. */
  lemma SpaceFirstSearches(f: string, x: string, y: string, d: string, ext: string, s1: int, dot: int)
    requires f == x + " " + y + "_" + d + "." + ext
    requires s1 == |x| + 1 + |y| && dot == s1 + 1 + |d|
    requires '_' !in x && '_' !in y && ' ' !in d && ' ' !in ext
    requires '.' !in ext
    ensures SeparatedParts(f, ' ') == PartsAt(f, s1, -1, dot)
  {
    Layout(x, ' ', y, '_', d, '.', ext);
    assert '_' !in f[..s1] by {
      assert f[..s1] == f[..|x|] + [' '] + f[|x| + 1..s1];
    }
    assert ' ' !in f[s1 + 1..] by {
      assert f[s1 + 1..] == d + "." + ext;
    }
    PyFindAt(f, '_', 0, s1);
    PyFindNone(f, ' ', s1 + 1);
    PyRFindAt(f, '.', dot);
    SeparatedPartsAt(f, ' ', s1, -1, dot);
  }

  /** The cuts of `x y_d.ext` when the space search fails. */
  lemma SpaceFirstParts(f: string, x: string, y: string, d: string, ext: string, s1: int, dot: int)
    requires f == x + " " + y + "_" + d + "." + ext
    requires s1 == |x| + 1 + |y| && dot == s1 + 1 + |d|
    ensures PartsAt(f, s1, -1, dot) == FilenameParts(x + " " + y, f[s1 + 1..|f| - 1], x + " " + y + "_" + d)
  {
    Layout(x, ' ', y, '_', d, '.', ext);
    assert f[..s1] == x + " " + y by {
      assert f[..s1] == f[..dot][..s1];
    }
  }

  /** One underscore and one space, but the space comes first: the space
      search after the underscore returns -1, so the ISTC id keeps the
      space, the MEI id runs from after the underscore to the character
      before the last, and the folio is everything before the last dot. */
  lemma SpaceBeforeUnderscore(x: string, y: string, d: string, ext: string)
    requires '_' !in x && '_' !in y && '_' !in d && '_' !in ext
    requires ' ' !in x && ' ' !in y && ' ' !in d && ' ' !in ext
    requires '.' !in ext
    ensures var f := x + " " + y + "_" + d + "." + ext;
            ExtractFilenameParts(f)
            == FilenameParts(x + " " + y, f[|x| + |y| + 2..|f| - 1], x + " " + y + "_" + d)
  {
    var f := x + " " + y + "_" + d + "." + ext;
    var s1 := |x| + 1 + |y|;
    var dot := s1 + 1 + |d|;
    SpaceFirstCount(x, y, d, ext);
    SpaceFirstSearches(f, x, y, d, ext, s1, dot);
    SpaceFirstParts(f, x, y, d, ext, s1, dot);
  }

  /** The searches and slices of the fallback branch on `istc_rest`. */
  lemma OtherPartsAfterUnderscore(istc: string, rest: string)
    requires '_' !in istc
    ensures OtherParts(istc + "_" + rest)
            == FilenameParts(istc, rest[..if |rest| < 7 then |rest| else 7], Unknown)
  {
    var f := istc + "_" + rest;
    var s1 := |istc|;
    assert f[..s1] == istc;
    assert f[s1 + 1..] == rest;
    PyFindAt(f, '_', 0, s1);
    var hi := if |rest| < 7 then |rest| else 7;
    assert SliceBound(s1 + 8, |f|) == s1 + 1 + hi;
    assert PySlice(f, s1 + 1, s1 + 8) == f[s1 + 1..s1 + 1 + hi] == rest[..hi];
  }

  /** Any other shape with an underscore: the MEI id is the (at most seven)
      characters after the first underscore, and there is no folio. */
  lemma OtherFormatWithUnderscore(istc: string, rest: string)
    requires '_' !in istc
    requires Count(istc + "_" + rest, '_') != 2 && !UnderscoreAndSpace(istc + "_" + rest)
    ensures ExtractFilenameParts(istc + "_" + rest)
            == FilenameParts(istc, rest[..if |rest| < 7 then |rest| else 7], Unknown)
  {
    OtherPartsAfterUnderscore(istc, rest);
  }

  /** No underscore at all: the -1 from the underscore search makes the
      ISTC id the filename minus its last character and the MEI id its first
      seven characters. */
  lemma NoUnderscore(filename: string)
    requires '_' !in filename
    ensures ExtractFilenameParts(filename)
            == FilenameParts(if |filename| == 0 then [] else filename[..|filename| - 1],
                             filename[..if |filename| < 7 then |filename| else 7], Unknown)
  {
    CountZero(filename, '_');
    assert filename[0..] == filename;
    assert PyFind(filename, '_', 0) == -1;
  }

  // ---------------------------------------------------------------------
  // The attribute index

  /** One row of the attribute index built for a dataset. */
  datatype IndexRow = IndexRow(docId: nat, filename: string, istcId: string, meiId: string,
                               folio: string, folioGroup: char)

  function RowOf(docId: nat, filename: string): (r: IndexRow)
    ensures r.docId == docId && r.filename == filename
    ensures FilenameParts(r.istcId, r.meiId, r.folio) == ExtractFilenameParts(filename)
    ensures |r.folio| > 0 && r.folioGroup == r.folio[0]
    ensures r.folio == Unknown ==> r.folioGroup == '_'
    ensures Count(filename, '_') != 2 && !UnderscoreAndSpace(filename) ==> r.folioGroup == '_'
  {
    var p := ExtractFilenameParts(filename);
    IndexRow(docId, filename, p.istcId, p.meiId, p.folio, p.folio[0])
  }

  /** The index rows for a dataset's files, numbered by position. */
  function IndexRows(filenames: seq<string>): (rows: seq<IndexRow>)
    ensures |rows| == |filenames|
    ensures forall i :: 0 <= i < |rows| ==> rows[i] == RowOf(i, filenames[i])
    ensures forall i :: 0 <= i < |rows| ==> rows[i].docId == i && rows[i].filename == filenames[i]
    ensures forall i :: (0 <= i < |rows| && Count(filenames[i], '_') != 2
                         && !UnderscoreAndSpace(filenames[i])) ==> rows[i].folioGroup == '_'
  {
    seq(|filenames|, i requires 0 <= i < |filenames| => RowOf(i, filenames[i]))
  }
}

=== FILE: flat_json.dfy ===
/** The JSON shape the search-engine manager writes for `index_status`: an
    array of flat objects whose members are `"key":value` with the value
    kept as raw JSON text. The manager writes it without any escaping, so a
    strict reader for exactly this shape is defined alongside the writer,
    and the two are shown to be inverse for text free of the structural
    characters `,`, `{` and `}` (and, in keys, `:`). */
module FlatJson {
  import opened Text

  /** One `"key":value` member; `value` is raw JSON text. */
  datatype Member = Member(key: string, value: string)

  type Object = seq<Member>

  // ---------------------------------------------------------------------
  // Writer

  function EncodeMember(m: Member): string
  {
    "\"" + m.key + "\":" + m.value
  }

  function EncodedMembers(o: Object): seq<string>
  {
    seq(|o|, i requires 0 <= i < |o| => EncodeMember(o[i]))
  }

  function EncodeObject(o: Object): string
  {
    "{" + Join(EncodedMembers(o), ',') + "}"
  }

  /** Objects separated by single commas. */
  function EncodeObjects(os: seq<Object>): string
  {
    if |os| == 0 then ""
    else if |os| == 1 then EncodeObject(os[0])
    else EncodeObject(os[0]) + "," + EncodeObjects(os[1..])
  }

  function EncodeArray(os: seq<Object>): string
  {
    "[" + EncodeObjects(os) + "]"
  }

  // ---------------------------------------------------------------------
  // Strict reader

  /** `"key":value`, the key ending at the first `:`. */
  function DecodeMember(t: string): (r: Option<Member>)
    ensures r.Some? ==> EncodeMember(r.value) == t
  {
    match IndexOf(t, ':')
    case None => None
    case Some(q) =>
      if q >= 2 && t[0] == '"' && t[q - 1] == '"' then
        assert t == [t[0]] + t[1..q - 1] + [t[q - 1]] + [t[q]] + t[q + 1..];
        Some(Member(t[1..q - 1], t[q + 1..]))
      else None
  }

  function DecodeMembers(ts: seq<string>): (r: Option<Object>)
    ensures r.Some? ==> |r.value| == |ts|
  {
    if |ts| == 0 then Some([])
    else match DecodeMember(ts[0])
      case None => None
      case Some(m) =>
        match DecodeMembers(ts[1..])
        case None => None
        case Some(ms) => Some([m] + ms)
  }

  function DecodeObjectBody(t: string): Option<Object>
  {
    DecodeMembers(Split(t, ','))
  }

  /** A comma-separated run of `{...}` objects, with no comma before the
      first, after the last, or twice in a row. */
  function DecodeObjects(s: string): Option<seq<Object>>
    decreases |s|
  {
    if |s| == 0 then Some([])
    else if s[0] != '{' then None
    else match IndexOf(s, '}')
      case None => None
      case Some(q) =>
        var rest := s[q + 1..];
        match DecodeObjectBody(s[1..q])
        case None => None
        case Some(o) =>
          if |rest| == 0 then Some([o])
          else if rest[0] != ',' || |rest| == 1 then None
          else match DecodeObjects(rest[1..])
            case None => None
            case Some(os) => Some([o] + os)
  }

  function DecodeArray(s: string): Option<seq<Object>>
  {
    if |s| >= 2 && s[0] == '[' && s[|s| - 1] == ']' then DecodeObjects(s[1..|s| - 1])
    else None
  }

  /** Value of the first member named `key`. */
  function Lookup(o: Object, key: string): (r: Option<string>)
    ensures r.Some? <==> exists i :: 0 <= i < |o| && o[i].key == key
    ensures r.Some? ==> exists i :: 0 <= i < |o| && o[i] == Member(key, r.value)
                                   && forall j :: 0 <= j < i ==> o[j].key != key
  {
    if |o| == 0 then None
    else if o[0].key == key then Some(o[0].value)
    else
      var r := Lookup(o[1..], key);
      assert forall i :: 1 <= i < |o| ==> o[i] == o[1..][i - 1];
      assert r.Some? ==> exists i :: 0 <= i < |o| && o[i] == Member(key, r.value)
                                  && forall j :: 0 <= j < i ==> o[j].key != key by {
        if r.Some? {
          var k :| 0 <= k < |o[1..]| && o[1..][k] == Member(key, r.value)
                   && forall j :: 0 <= j < k ==> o[1..][j].key != key;
          assert forall j :: 0 <= j < k + 1 ==> o[j].key != key by {
            forall j | 0 <= j < k + 1 ensures o[j].key != key {
              if j > 0 {
                assert o[j] == o[1..][j - 1];
              }
            }
          }
          assert o[k + 1] == Member(key, r.value);
        }
      }
      r
  }

  // ---------------------------------------------------------------------
  // Round trip

  /** Text that cannot be confused with the array's structure. */
  predicate PlainValue(v: string)
  {
    ',' !in v && '{' !in v && '}' !in v
  }

  predicate PlainKey(k: string)
  {
    PlainValue(k) && ':' !in k
  }

  /** Plainness checked one position at a time. */
  lemma ValueByChars(v: string)
    requires forall i :: 0 <= i < |v| ==> v[i] != ',' && v[i] != '{' && v[i] != '}'
    ensures PlainValue(v)
  {
  }

  lemma KeyByChars(k: string)
    requires forall i :: 0 <= i < |k| ==> k[i] != ',' && k[i] != '{' && k[i] != '}' && k[i] != ':'
    ensures PlainKey(k)
  {
  }

  /** Objects the reader can take apart again: at least one member, every
      key and value plain. */
  predicate Readable(o: Object)
  {
    |o| >= 1 && forall i :: 0 <= i < |o| ==> PlainKey(o[i].key) && PlainValue(o[i].value)
  }

  lemma MemberRoundTrip(m: Member)
    requires PlainKey(m.key)
    ensures DecodeMember(EncodeMember(m)) == Some(m)
  {
    var a := "\"" + m.key + "\"";
    assert ':' !in a;
    IndexOfAfter(a, ':', m.value);
    var t := EncodeMember(m);
    assert t == a + [':'] + m.value;
    var q := |a|;
    assert t[0] == '"' && t[q - 1] == '"';
    assert t[1..q - 1] == m.key;
    assert t[q + 1..] == m.value;
  }

  lemma {:induction false} MembersRoundTrip(o: Object)
    requires forall i :: 0 <= i < |o| ==> PlainKey(o[i].key)
    ensures DecodeMembers(EncodedMembers(o)) == Some(o)
    decreases |o|
  {
    if |o| > 0 {
      MemberRoundTrip(o[0]);
      MembersRoundTrip(o[1..]);
      assert EncodedMembers(o)[1..] == EncodedMembers(o[1..]);
      assert o == [o[0]] + o[1..];
    }
  }

  lemma ObjectBodyRoundTrip(o: Object)
    requires Readable(o)
    ensures DecodeObjectBody(Join(EncodedMembers(o), ',')) == Some(o)
    ensures '}' !in Join(EncodedMembers(o), ',')
  {
    var ms := EncodedMembers(o);
    forall k | 0 <= k < |ms|
      ensures ',' !in ms[k] && '}' !in ms[k]
    {
      assert ms[k] == "\"" + o[k].key + "\":" + o[k].value;
    }
    SplitJoin(ms, ',');
    MembersRoundTrip(o);
    JoinWithout(ms, ',', '}');
  }

  /** A join adds only separators: a character in no piece, other than the
      separator, is not in the joined text. */
  lemma {:induction false} JoinWithout(ts: seq<string>, sep: char, c: char)
    requires c != sep
    requires forall k :: 0 <= k < |ts| ==> c !in ts[k]
    ensures c !in Join(ts, sep)
    decreases |ts|
  {
    if |ts| >= 2 {
      JoinWithout(ts[..|ts| - 1], sep, c);
    }
  }

  /** Reading one object off the front of a run of objects. */
  lemma DecodeObjectsFront(body: string, o: Object, rest: string)
    requires '}' !in body
    requires DecodeObjectBody(body) == Some(o)
    ensures DecodeObjects("{" + body + "}" + rest)
            == if |rest| == 0 then Some([o])
               else if rest[0] != ',' || |rest| == 1 then None
               else match DecodeObjects(rest[1..])
                 case None => None
                 case Some(os) => Some([o] + os)
  {
    var s := "{" + body + "}" + rest;
    assert s == ("{" + body) + ['}'] + rest;
    IndexOfAfter("{" + body, '}', rest);
    assert s[1..|body| + 1] == body;
    assert s[|body| + 2..] == rest;
  }

  /** Reading an object followed by a comma and a further run. */
  lemma DecodeObjectsCons(body: string, o: Object, tail: string, os: seq<Object>)
    requires '}' !in body
    requires DecodeObjectBody(body) == Some(o)
    requires |tail| > 0 && DecodeObjects(tail) == Some(os)
    ensures DecodeObjects("{" + body + "}" + ("," + tail)) == Some([o] + os)
  {
    DecodeObjectsFront(body, o, "," + tail);
    assert ("," + tail)[1..] == tail;
  }

  /** A non-empty run: the first object, a comma if more follow, the rest. */
  lemma EncodeObjectsFront(os: seq<Object>)
    requires |os| >= 1
    ensures EncodeObjects(os)
            == EncodeObject(os[0]) + (if |os| >= 2 then "," else "") + EncodeObjects(os[1..])
  {
    if |os| == 1 {
      assert EncodeObjects(os[1..]) == "";
    }
  }

  /** Two or more objects: the first, a comma, then the rest. */
  lemma EncodeObjectsCons(os: seq<Object>)
    requires |os| >= 2
    ensures EncodeObjects(os)
            == "{" + Join(EncodedMembers(os[0]), ',') + "}" + ("," + EncodeObjects(os[1..]))
  {
  }

  lemma EncodeObjectsNonEmpty(os: seq<Object>)
    requires |os| >= 1
    ensures |EncodeObjects(os)| > 0
  {
  }

  /** The inductive step of `ObjectsRoundTrip`, for two or more objects. */
  lemma ObjectsRoundTripStep(os: seq<Object>)
    requires |os| >= 2 && Readable(os[0])
    requires DecodeObjects(EncodeObjects(os[1..])) == Some(os[1..])
    ensures DecodeObjects(EncodeObjects(os)) == Some(os)
  {
    ObjectBodyRoundTrip(os[0]);
    EncodeObjectsNonEmpty(os[1..]);
    EncodeObjectsCons(os);
    DecodeObjectsCons(Join(EncodedMembers(os[0]), ','), os[0], EncodeObjects(os[1..]), os[1..]);
    assert os == [os[0]] + os[1..];
  }

  lemma {:induction false} ObjectsRoundTrip(os: seq<Object>)
    requires forall i :: 0 <= i < |os| ==> Readable(os[i])
    ensures DecodeObjects(EncodeObjects(os)) == Some(os)
    decreases |os|
  {
    if |os| == 1 {
      var body := Join(EncodedMembers(os[0]), ',');
      ObjectBodyRoundTrip(os[0]);
      DecodeObjectsFront(body, os[0], "");
      assert EncodeObjects(os) == "{" + body + "}" + "";
      assert os == [os[0]];
    } else if |os| >= 2 {
      ObjectsRoundTrip(os[1..]);
      ObjectsRoundTripStep(os);
    }
  }

  /** Reading a written array gives back exactly the objects written. */
  lemma ArrayRoundTrip(os: seq<Object>)
    requires forall i :: 0 <= i < |os| ==> Readable(os[i])
    ensures DecodeArray(EncodeArray(os)) == Some(os)
  {
    ObjectsRoundTrip(os);
    var s := EncodeArray(os);
    assert s[1..|s| - 1] == EncodeObjects(os);
  }
}

=== FILE: search_engine_manager.dfy ===
/** The search-engine manager: the five indexing stages, the per-stage
    progress maps, and the command dispatcher that answers `init`,
    `index_start`, `index_status` and `engine_exists` with an HTTP status
    and a JSON payload.

    The manager is an immutable record. Asking the filesystem whether an
    engine directory exists becomes the parameter `engineExists`; whether
    starting the indexing thread throws becomes the parameter `spawn`. What
    the dispatcher asks the rest of the system to do (create an engine,
    start the indexing thread) is returned as an `Effect` rather than
    performed. */
module SearchEngineManager {
  import opened Text
  import FlatJson

  datatype Manager = Manager(
    dataDir: string,
    indexThreadRunning: bool,
    nowName: string,             // engine being indexed
    nowVersion: string,
    stageNames: seq<string>,
    stageDescs: seq<string>,
    indexState: map<string, string>,   // stage name -> state
    stepsDone: map<string, string>,    // stage name -> steps done, as text
    stepsCount: map<string, string>,   // stage name -> steps in all, as text
    autoLoad: bool)

  /** The HTTP response the dispatcher fills in. */
  datatype Response = Response(status: int, fields: map<string, string>, payload: string)

  /** What the dispatcher hands on to the rest of the system. */
  datatype Effect =
    | NoEffect
    | CreateEngine(name: string, version: string, description: string)
    | StartIndexing(name: string, version: string)

  /** Whether constructing the indexing thread succeeds or throws. */
  datatype Spawn = Spawned | SpawnFailed(what: string)

  /** A handled command, or the `std::out_of_range` that `at()` throws when
      the description list is shorter than the stage-name list. */
  datatype Outcome =
    | Handled(response: Response, next: Manager, effect: Effect)
    | OutOfRange

  const JsonType := "application/json"

  /** The indexing stages in the order they run. */
  const StageNames: seq<string> := [
    "relja_retrival:trainDescs",
    "relja_retrival:cluster",
    "relja_retrival:trainAssign",
    "relja_retrival:trainHamm",
    "relja_retrival:index"
  ]

  /** The description shown for the stage at the same position. */
  const StageDescs: seq<string> := [
    "Computing image descriptors",
    "Clustering descriptors",
    "Assigning descriptors",
    "Computing embeddings",
    "Indexing"
  ]

  /** Every stage has a description at the same position. */
  predicate Paired(m: Manager)
  {
    |m.stageNames| <= |m.stageDescs|
  }

  // ---------------------------------------------------------------------
  // Stage lists and index state

  /** `init`: remember the data directory, stop tracking any indexing, and
      install the five stages with their descriptions. The step maps are
      left as they were. */
  function Init(m: Manager, dataDir: string): (r: Manager)
    ensures r.stageNames == StageNames && r.stageDescs == StageDescs
    ensures |r.stageNames| == 5 && |r.stageDescs| == 5 && Distinct(r.stageNames)
    ensures forall i :: 0 <= i < 5 ==> r.stageNames[i][..15] == "relja_retrival:"
    ensures r.indexState == map[] && !r.indexThreadRunning && r.autoLoad
    ensures r.dataDir == dataDir
    ensures r.stepsDone == m.stepsDone && r.stepsCount == m.stepsCount
    ensures r.nowName == m.nowName && r.nowVersion == m.nowVersion
  {
    StageNamesDistinct();
    m.(dataDir := dataDir, indexThreadRunning := false, indexState := map[],
       stageNames := StageNames, stageDescs := StageDescs, autoLoad := true)
  }

  /** The state map the clearing loop builds: each listed name mapped to
      `not_started`. */
  function MarkNotStarted(names: seq<string>): (r: map<string, string>)
    ensures r.Keys == set i | 0 <= i < |names| :: names[i]
    ensures forall n :: n in r ==> r[n] == "not_started"
  {
    if |names| == 0 then map[]
    else
      var init := names[..|names| - 1];
      var front := MarkNotStarted(init);
      assert (set i | 0 <= i < |names| :: names[i])
          == (set i | 0 <= i < |init| :: init[i]) + {names[|names| - 1]};
      front[names[|names| - 1] := "not_started"]
  }

  /** `clear_now_search_engine_index_state`. */
  function ClearIndexState(m: Manager): (r: Manager)
    ensures r.stepsDone == map[] && r.stepsCount == map[]
    ensures forall n :: n in r.indexState <==> n in m.stageNames
    ensures forall n :: n in r.indexState ==> r.indexState[n] == "not_started"
    ensures r.(indexState := m.indexState, stepsDone := m.stepsDone, stepsCount := m.stepsCount) == m
  {
    var states := MarkNotStarted(m.stageNames);
    assert forall n :: n in states <==> n in m.stageNames by {
      forall n ensures n in states <==> n in m.stageNames {
        if n in m.stageNames {
          var i :| 0 <= i < |m.stageNames| && m.stageNames[i] == n;
        }
      }
    }
    m.(stepsDone := map[], stepsCount := map[], indexState := states)
  }

  /** The part of the indexing thread's body that the source still runs:
      mark indexing as running for the named engine and reset every stage
      to `not_started`. */
  function BeginIndexing(m: Manager, name: string, version: string): (r: Manager)
    ensures r.indexThreadRunning && r.nowName == name && r.nowVersion == version
    ensures forall n :: n in r.indexState <==> n in m.stageNames
    ensures forall n :: n in r.indexState ==> r.indexState[n] == "not_started"
    ensures r.stepsDone == map[] && r.stepsCount == map[]
    ensures r.(indexThreadRunning := m.indexThreadRunning, nowName := m.nowName,
               nowVersion := m.nowVersion, indexState := m.indexState,
               stepsDone := m.stepsDone, stepsCount := m.stepsCount) == m
  {
    ClearIndexState(m.(indexThreadRunning := true, nowName := name, nowVersion := version))
  }

  // ---------------------------------------------------------------------
  // index_status payload

  /** `std::map::operator[]` on a map of strings: the stored value, or the
      empty string for a key not yet present. */
  function Read(mp: map<string, string>, key: string): string
  {
    if key in mp then mp[key] else ""
  }

  /** The map after `operator[]` has been applied to every key in `keys`:
      the missing ones are now present with the empty string. */
  function Touch(mp: map<string, string>, keys: set<string>): (r: map<string, string>)
    ensures r.Keys == mp.Keys + keys
    ensures forall k :: k in r ==> r[k] == Read(mp, k)
  {
    map k | k in mp.Keys + keys :: Read(mp, k)
  }

  function Quote(v: string): string
  {
    "\"" + v + "\""
  }

  /** The members written for one stage: name, description and state, and
      the two step counts only while the stage is in progress. */
  function StageObject(name: string, desc: string, state: string,
                       done: string, count: string): FlatJson.Object
  {
    [FlatJson.Member("name", Quote(name)),
     FlatJson.Member("description", Quote(desc)),
     FlatJson.Member("state", Quote(state))]
    + (if state == "progress" then
         [FlatJson.Member("steps_done", done), FlatJson.Member("steps_count", count)]
       else [])
  }

  /** Stage `i` as the status loop reads it through `operator[]`. */
  function StageMembers(m: Manager, i: nat): FlatJson.Object
    requires Paired(m) && i < |m.stageNames|
  {
    var name := m.stageNames[i];
    StageObject(name, m.stageDescs[i], Read(m.indexState, name),
                Read(m.stepsDone, name), Read(m.stepsCount, name))
  }

  function StageObjects(m: Manager): seq<FlatJson.Object>
    requires Paired(m)
  {
    seq(|m.stageNames|, i requires 0 <= i < |m.stageNames| => StageMembers(m, i))
  }

  /** The text the status loop writes from iteration `i` on: a comma before
      every object but the first, then the object. */
  function StatusElements(m: Manager, i: nat): string
    requires Paired(m)
    decreases |m.stageNames| - i
  {
    if i >= |m.stageNames| then ""
    else (if i != 0 then "," else "") + FlatJson.EncodeObject(StageMembers(m, i))
         + StatusElements(m, i + 1)
  }

  /** The status array: what the hand-written loop emits is the JSON array
      encoding of the stage objects. */
  function StatusPayload(m: Manager): (r: string)
    requires Paired(m)
    ensures r == FlatJson.EncodeArray(StageObjects(m))
  {
    StatusElementsAreObjects(m, 0);
    assert StageObjects(m)[0..] == StageObjects(m);
    "[" + StatusElements(m, 0) + "]"
  }

  /** The manager after the status loop has read every stage's state and,
      for stages in progress, both step counts through `operator[]`. */
  function AfterStatusRead(m: Manager): (r: Manager)
    ensures r.indexState.Keys == m.indexState.Keys + set i | 0 <= i < |m.stageNames| :: m.stageNames[i]
    ensures forall n :: n in r.indexState ==> r.indexState[n] == Read(m.indexState, n)
    ensures forall n :: n in r.stepsDone ==> r.stepsDone[n] == Read(m.stepsDone, n)
    ensures forall n :: n in r.stepsCount ==> r.stepsCount[n] == Read(m.stepsCount, n)
    ensures forall n :: n in r.stepsDone <==>
              n in m.stepsDone || (n in m.stageNames && Read(m.indexState, n) == "progress")
    ensures forall n :: n in r.stepsCount <==>
              n in m.stepsCount || (n in m.stageNames && Read(m.indexState, n) == "progress")
    ensures r.(indexState := m.indexState, stepsDone := m.stepsDone, stepsCount := m.stepsCount) == m
  {
    var names := set i | 0 <= i < |m.stageNames| :: m.stageNames[i];
    var inProgress := set n | n in names && Read(m.indexState, n) == "progress";
    m.(indexState := Touch(m.indexState, names),
       stepsDone := Touch(m.stepsDone, inProgress),
       stepsCount := Touch(m.stepsCount, inProgress))
  }

  // ---------------------------------------------------------------------
  // Command dispatch

  function JsonReply(response: Response, status: int, payload: string): Response
  {
    response.(status := status, fields := response.fields["Content-Type" := JsonType],
               payload := payload)
  }

  const AlreadyExists := "{\"error\":\"search engine already exists\"}"
  const NotStarted := "{\"error\":\"indexing not started yet!\"}"
  const IndexingStarted := "{\"ok\":\"indexing started\"}"
  const EngineFound := "{\"yes\":\"search engine exists\"}"
  const EngineMissing := "{\"no\":\"search engine does not exist\"}"

  const CreatedHead := "{\"ok\":\"search engine created\", \"search_engine_name\":\""
  const CreatedMiddle := "\",\"search_engine_version\":\""

  function CreatedPayload(name: string, version: string): string
  {
    CreatedHead + name + CreatedMiddle + version + "\"}"
  }

  /** The success reply of `init` echoes the engine's name and version:
      for quote-free names, different engines get different replies. */
  lemma CreatedPayloadEchoes(n1: string, v1: string, n2: string, v2: string)
    requires '"' !in n1 && '"' !in n2
    requires CreatedPayload(n1, v1) == CreatedPayload(n2, v2)
    ensures n1 == n2 && v1 == v2
  {
    var tail1 := CreatedMiddle[1..] + v1 + "\"}";
    var tail2 := CreatedMiddle[1..] + v2 + "\"}";
    CreatedPayloadShape(n1, v1, tail1);
    CreatedPayloadShape(n2, v2, tail2);
    DropPrefix(CreatedHead, n1 + ['"'] + tail1, n2 + ['"'] + tail2);
    CutAtFirst(n1, tail1, n2, tail2, '"');
    DropAround(CreatedMiddle[1..], v1, v2, "\"}");
  }

  lemma CreatedPayloadShape(n: string, v: string, tail: string)
    requires tail == CreatedMiddle[1..] + v + "\"}"
    ensures CreatedPayload(n, v) == CreatedHead + (n + ['"'] + tail)
  {
    assert CreatedMiddle == ['"'] + CreatedMiddle[1..];
  }

  lemma DropPrefix(p: string, x: string, y: string)
    requires p + x == p + y
    ensures x == y
  {
    assert x == (p + x)[|p|..];
  }

  lemma DropAround(p: string, x: string, y: string, q: string)
    requires p + x + q == p + y + q
    ensures x == y
  {
    assert x == (p + x + q)[|p|..|p| + |x|];
    assert |x| == |y|;
  }

  function OngoingPayload(m: Manager): string
  {
    "{\"error\":\"indexing ongoing for " + m.nowName + ":" + m.nowVersion + "\"}"
  }

  /** The commands `process_cmd` recognises. */
  const Commands: set<string> := {"init", "index_start", "index_status", "engine_exists"}

  /** `process_cmd`. */
  function ProcessCmd(m: Manager, name: string, version: string, command: string,
                      requestBody: string, response: Response,
                      engineExists: (string, string) -> bool, spawn: Spawn): (r: Outcome)
    ensures r.OutOfRange? <==> command == "index_status" && |m.indexState| > 0 && !Paired(m)
    ensures r.Handled? && command != "index_status" ==> r.next == m
    ensures r.Handled? && r.effect.StartIndexing? ==> command == "index_start" && !m.indexThreadRunning
    ensures r.Handled? && r.effect.CreateEngine? ==> command == "init" && !engineExists(name, version)
    ensures r.Handled? ==> r.response.status == 200 || r.response.status == 400
    ensures command == "init" ==>
              r.Handled? && (r.response.status == 400 <==> engineExists(name, version))
    ensures command == "init" && engineExists(name, version) ==>
              r.Handled? && r.response.payload == AlreadyExists && r.effect == NoEffect
    ensures command == "init" && !engineExists(name, version) ==>
              r.Handled? && r.response.status == 200 && r.response.payload == CreatedPayload(name, version)
              && r.effect == CreateEngine(name, version, requestBody)
    ensures command == "index_start" && m.indexThreadRunning ==>
              r.Handled? && r.response.status == 400 && r.effect == NoEffect
              && r.response.payload == OngoingPayload(m)
    ensures command == "index_start" && !m.indexThreadRunning && spawn.Spawned? ==>
              r.Handled? && r.response.status == 200 && r.response.payload == IndexingStarted
              && r.effect == StartIndexing(name, version)
    ensures command == "index_start" && !m.indexThreadRunning && spawn.SpawnFailed? ==>
              r.Handled? && r.response.status == 400 && r.effect == NoEffect
              && r.response.payload == "{\"error\":\"" + spawn.what + "\"}"
    ensures command == "index_status" && Paired(m) ==>
              r.Handled? && (r.response.status == 200 <==> |m.indexState| > 0)
    ensures command == "index_status" && Paired(m) && |m.indexState| > 0 ==>
              r.Handled? && r.response.payload == StatusPayload(m)
              && r.next == AfterStatusRead(m) && r.effect == NoEffect
    ensures command == "index_status" && |m.indexState| == 0 ==>
              r.Handled? && r.response.status == 400 && r.response.payload == NotStarted
              && r.next == m && r.effect == NoEffect
    ensures command == "engine_exists" ==>
              r.Handled? && r.response.status == 200
              && (r.response.payload == EngineFound <==> engineExists(name, version))
              && (r.response.payload == EngineMissing <==> !engineExists(name, version))
    ensures r.Handled? && command in Commands ==>
              r.response.fields == response.fields["Content-Type" := JsonType]
    ensures command !in Commands ==> r == Handled(response.(status := 400), m, NoEffect)
  {
    if command == "init" then
      if engineExists(name, version) then
        Handled(JsonReply(response, 400, AlreadyExists), m, NoEffect)
      else
        var description := if |requestBody| > 0 then requestBody else "";
        Handled(JsonReply(response, 200, CreatedPayload(name, version)), m,
                CreateEngine(name, version, description))
    else if command == "index_start" then
      if m.indexThreadRunning then
        Handled(JsonReply(response, 400, OngoingPayload(m)), m, NoEffect)
      else match spawn
        case Spawned =>
          Handled(JsonReply(response, 200, IndexingStarted), m, StartIndexing(name, version))
        case SpawnFailed(what) =>
          Handled(JsonReply(response, 400, "{\"error\":\"" + what + "\"}"), m, NoEffect)
    else if command == "index_status" then
      if |m.indexState| > 0 then
        if !Paired(m) then OutOfRange
        else Handled(JsonReply(response, 200, StatusPayload(m)), AfterStatusRead(m), NoEffect)
      else
        Handled(JsonReply(response, 400, NotStarted), m, NoEffect)
    else if command == "engine_exists" then
      Handled(JsonReply(response, 200, if engineExists(name, version) then EngineFound else EngineMissing),
              m, NoEffect)
    else
      Handled(response.(status := 400), m, NoEffect)
  }

  // ---------------------------------------------------------------------
  // Properties

  /** No stage name is listed twice. */
  predicate Distinct(names: seq<string>)
  {
    forall i, j :: 0 <= i < j < |names| ==> names[i] != names[j]
  }

  /** Clearing tracks one state per listed stage when no name repeats. */
  lemma {:induction false} MarkNotStartedSize(names: seq<string>)
    requires Distinct(names)
    ensures |MarkNotStarted(names)| == |names|
    decreases |names|
  {
    if |names| > 0 {
      var init := names[..|names| - 1];
      MarkNotStartedSize(init);
    }
  }

  lemma StageNamesDistinct()
    ensures Distinct(StageNames)
  {
    var n := StageNames;
    assert |n[0]| == 25 && |n[1]| == 22 && |n[2]| == 26 && |n[3]| == 24 && |n[4]| == 20;
  }

  /** The stage names after `init` are distinct, so clearing the index
      state afterwards tracks exactly five stages. */
  lemma InitThenClearTracksFiveStages(m: Manager, dataDir: string)
    ensures var r := ClearIndexState(Init(m, dataDir));
            |r.indexState| == 5
            && forall i :: 0 <= i < 5 ==> r.indexState[r.stageNames[i]] == "not_started"
  {
    StageNamesDistinct();
    MarkNotStartedSize(StageNames);
    assert ClearIndexState(Init(m, dataDir)).indexState == MarkNotStarted(StageNames);
  }

  /** Every stage text and every stored value is free of `,`, `{` and `}`,
      so the unescaped status array can be read back. */
  predicate PlainStatus(m: Manager)
  {
    && (forall i :: 0 <= i < |m.stageNames| ==> FlatJson.PlainValue(m.stageNames[i]))
    && (forall i :: 0 <= i < |m.stageDescs| ==> FlatJson.PlainValue(m.stageDescs[i]))
    && (forall k :: k in m.indexState ==> FlatJson.PlainValue(m.indexState[k]))
    && (forall k :: k in m.stepsDone ==> FlatJson.PlainValue(m.stepsDone[k]))
    && (forall k :: k in m.stepsCount ==> FlatJson.PlainValue(m.stepsCount[k]))
  }

  /** One iteration of the status loop. */
  lemma StatusElementsUnfold(m: Manager, i: nat)
    requires Paired(m) && i < |m.stageNames|
    ensures StatusElements(m, i)
            == (if i != 0 then "," else "") + FlatJson.EncodeObject(StageMembers(m, i))
               + StatusElements(m, i + 1)
  {
  }

  /** The run of stage objects from `i` on starts with stage `i`. */
  lemma StageObjectsFrom(m: Manager, i: nat)
    requires Paired(m) && i < |m.stageNames|
    ensures FlatJson.EncodeObjects(StageObjects(m)[i..])
            == FlatJson.EncodeObject(StageMembers(m, i))
               + (if i + 1 < |m.stageNames| then "," else "")
               + FlatJson.EncodeObjects(StageObjects(m)[i + 1..])
  {
    var os := StageObjects(m);
    FlatJson.EncodeObjectsFront(os[i..]);
    assert os[i..][1..] == os[i + 1..];
  }

  /** The loop's "comma unless first" output is the comma-separated run of
      the stage objects from position `i` on. */
  lemma {:induction false} StatusElementsAreObjects(m: Manager, i: nat)
    requires Paired(m) && i <= |m.stageNames|
    ensures StatusElements(m, i)
            == (if i != 0 && i < |m.stageNames| then "," else "")
               + FlatJson.EncodeObjects(StageObjects(m)[i..])
    decreases |m.stageNames| - i
  {
    var os := StageObjects(m);
    if i < |m.stageNames| {
      StatusElementsAreObjects(m, i + 1);
      StatusElementsUnfold(m, i);
      StageObjectsFrom(m, i);
      var pre := if i != 0 then "," else "";
      var e := FlatJson.EncodeObject(StageMembers(m, i));
      var sep := if i + 1 < |m.stageNames| then "," else "";
      var rest := FlatJson.EncodeObjects(os[i + 1..]);
      assert pre + e + (sep + rest) == pre + (e + sep + rest);
    } else {
      assert os[i..] == [];
    }
  }

  lemma QuotePlain(v: string)
    requires FlatJson.PlainValue(v)
    ensures FlatJson.PlainValue(Quote(v))
  {
  }

  lemma ReadPlain(mp: map<string, string>, key: string)
    requires forall k :: k in mp ==> FlatJson.PlainValue(mp[k])
    ensures FlatJson.PlainValue(Read(mp, key))
  {
  }

  /** The five member names a stage object may carry are plain keys. */
  lemma StageKeysPlain()
    ensures FlatJson.PlainKey("name") && FlatJson.PlainKey("description") && FlatJson.PlainKey("state")
    ensures FlatJson.PlainKey("steps_done") && FlatJson.PlainKey("steps_count")
  {
    FlatJson.KeyByChars("name");
    FlatJson.KeyByChars("description");
    FlatJson.KeyByChars("state");
    FlatJson.KeyByChars("steps_done");
    FlatJson.KeyByChars("steps_count");
  }

  lemma StageObjectReadable(name: string, desc: string, state: string, done: string, count: string)
    requires FlatJson.PlainValue(name) && FlatJson.PlainValue(desc) && FlatJson.PlainValue(state)
    requires FlatJson.PlainValue(done) && FlatJson.PlainValue(count)
    ensures FlatJson.Readable(StageObject(name, desc, state, done, count))
  {
    QuotePlain(name);
    QuotePlain(desc);
    QuotePlain(state);
    StageKeysPlain();
    var o := StageObject(name, desc, state, done, count);
    forall j | 0 <= j < |o|
      ensures FlatJson.PlainKey(o[j].key) && FlatJson.PlainValue(o[j].value)
    {
      if j >= 3 {
        assert o[j] == if j == 3 then FlatJson.Member("steps_done", done)
                       else FlatJson.Member("steps_count", count);
      }
    }
  }

  lemma StageMembersReadable(m: Manager, i: nat)
    requires Paired(m) && i < |m.stageNames| && PlainStatus(m)
    ensures FlatJson.Readable(StageMembers(m, i))
  {
    var name := m.stageNames[i];
    ReadPlain(m.indexState, name);
    ReadPlain(m.stepsDone, name);
    ReadPlain(m.stepsCount, name);
    StageObjectReadable(name, m.stageDescs[i], Read(m.indexState, name),
                        Read(m.stepsDone, name), Read(m.stepsCount, name));
  }

  /** The `index_status` payload is a JSON array holding exactly one object
      per stage, in stage-list order, with commas only between objects. */
  lemma StatusPayloadReadsBack(m: Manager)
    requires Paired(m) && PlainStatus(m)
    ensures FlatJson.DecodeArray(StatusPayload(m)) == Some(StageObjects(m))
    ensures |StageObjects(m)| == |m.stageNames|
  {
    var os := StageObjects(m);
    forall i | 0 <= i < |os| ensures FlatJson.Readable(os[i]) {
      StageMembersReadable(m, i);
    }
    FlatJson.ArrayRoundTrip(os);
  }

  /** A stage's object names the stage and its description, reports its
      state, and carries `steps_done` and `steps_count` exactly when that
      state is `progress`. */
  lemma StageObjectFields(name: string, desc: string, state: string, done: string, count: string)
    ensures var o := StageObject(name, desc, state, done, count);
            && FlatJson.Lookup(o, "name") == Some(Quote(name))
            && FlatJson.Lookup(o, "description") == Some(Quote(desc))
            && FlatJson.Lookup(o, "state") == Some(Quote(state))
            && (FlatJson.Lookup(o, "steps_done").Some? <==> state == "progress")
            && (FlatJson.Lookup(o, "steps_count").Some? <==> state == "progress")
  {
    var o := StageObject(name, desc, state, done, count);
    assert o[1..][0].key == "description";
    assert o[1..][1..][0].key == "state";
    if state == "progress" {
      assert o[3].key == "steps_done" && o[4].key == "steps_count";
    } else {
      assert |o| == 3;
      assert forall j :: 0 <= j < |o| ==> o[j].key != "steps_done" && o[j].key != "steps_count";
    }
  }

  /** The stage names `init` installs contain no JSON structural character. */
  lemma StageNamesPlain()
    ensures forall i :: 0 <= i < |StageNames| ==> FlatJson.PlainValue(StageNames[i])
  {
    FlatJson.ValueByChars("relja_retrival:trainDescs");
    FlatJson.ValueByChars("relja_retrival:cluster");
    FlatJson.ValueByChars("relja_retrival:trainAssign");
    FlatJson.ValueByChars("relja_retrival:trainHamm");
    FlatJson.ValueByChars("relja_retrival:index");
  }

  /** The stage descriptions `init` installs contain no JSON structural
      character. */
  lemma StageDescsPlain()
    ensures forall i :: 0 <= i < |StageDescs| ==> FlatJson.PlainValue(StageDescs[i])
  {
    FlatJson.ValueByChars("Computing image descriptors");
    FlatJson.ValueByChars("Clustering descriptors");
    FlatJson.ValueByChars("Assigning descriptors");
    FlatJson.ValueByChars("Computing embeddings");
    FlatJson.ValueByChars("Indexing");
  }

  /** After `init` and the start of indexing every stored text is plain. */
  lemma BegunPlain(m: Manager, dataDir: string, name: string, version: string)
    ensures var s := BeginIndexing(Init(m, dataDir), name, version);
            Paired(s) && PlainStatus(s)
  {
    var s := BeginIndexing(Init(m, dataDir), name, version);
    StageNamesPlain();
    StageDescsPlain();
    FlatJson.ValueByChars("not_started");
    assert s.stageNames == StageNames && s.stageDescs == StageDescs;
  }

  /** After `init` and the start of indexing, the five stages are tracked,
      each `not_started`. */
  lemma BegunStates(m: Manager, dataDir: string, name: string, version: string)
    ensures var s := BeginIndexing(Init(m, dataDir), name, version);
            && |s.stageNames| == 5 && |s.indexState| == 5
            && forall i :: 0 <= i < 5 ==>
                 s.stageNames[i] in s.indexState && s.indexState[s.stageNames[i]] == "not_started"
  {
    var s := BeginIndexing(Init(m, dataDir), name, version);
    StageNamesDistinct();
    MarkNotStartedSize(StageNames);
    assert s.indexState == MarkNotStarted(StageNames);
  }

  /** The manager right after the indexing thread has begun on a freshly
      initialised manager. */
  lemma BegunAfterInit(m: Manager, dataDir: string, name: string, version: string)
    ensures var s := BeginIndexing(Init(m, dataDir), name, version);
            && Paired(s) && PlainStatus(s) && |s.stageNames| == 5 && |s.indexState| == 5
            && forall i :: 0 <= i < 5 ==>
                 s.stageNames[i] in s.indexState && s.indexState[s.stageNames[i]] == "not_started"
  {
    BegunPlain(m, dataDir, name, version);
    BegunStates(m, dataDir, name, version);
  }

  /** While every stage is `not_started`, `index_status` answers 200 with
      one object per stage, each reporting `not_started` and none carrying
      step counts. */
  lemma StatusWhileNotStarted(m: Manager, name: string, version: string, body: string,
                              response: Response, engineExists: (string, string) -> bool,
                              spawn: Spawn)
    requires Paired(m) && PlainStatus(m) && |m.indexState| > 0
    requires forall i :: 0 <= i < |m.stageNames| ==>
               m.stageNames[i] in m.indexState && m.indexState[m.stageNames[i]] == "not_started"
    ensures var r := ProcessCmd(m, name, version, "index_status", body, response, engineExists, spawn);
            && r.Handled? && r.response.status == 200
            && var objs := FlatJson.DecodeArray(r.response.payload);
            && objs.Some? && |objs.value| == |m.stageNames|
            && forall i :: 0 <= i < |objs.value| ==>
                 && FlatJson.Lookup(objs.value[i], "state") == Some(Quote("not_started"))
                 && FlatJson.Lookup(objs.value[i], "steps_done") == None
                 && FlatJson.Lookup(objs.value[i], "steps_count") == None
  {
    StatusPayloadReadsBack(m);
    var os := StageObjects(m);
    forall i | 0 <= i < |os|
      ensures FlatJson.Lookup(os[i], "state") == Some(Quote("not_started"))
      ensures FlatJson.Lookup(os[i], "steps_done") == None
      ensures FlatJson.Lookup(os[i], "steps_count") == None
    {
      var n := m.stageNames[i];
      StageObjectFields(n, m.stageDescs[i], Read(m.indexState, n),
                        Read(m.stepsDone, n), Read(m.stepsCount, n));
    }
  }

  /** Right after the indexing thread starts on a freshly initialised
      manager, `index_status` answers 200 with five stages, each
      `not_started` and none carrying step counts. */
  lemma StatusAfterIndexingBegins(m: Manager, dataDir: string, name: string, version: string,
                                  body: string, response: Response,
                                  engineExists: (string, string) -> bool, spawn: Spawn)
    ensures var s := BeginIndexing(Init(m, dataDir), name, version);
            var r := ProcessCmd(s, name, version, "index_status", body, response, engineExists, spawn);
            && r.Handled? && r.response.status == 200
            && var objs := FlatJson.DecodeArray(r.response.payload);
            && objs.Some? && |objs.value| == 5
            && forall i :: 0 <= i < 5 ==>
                 && FlatJson.Lookup(objs.value[i], "state") == Some(Quote("not_started"))
                 && FlatJson.Lookup(objs.value[i], "steps_done") == None
                 && FlatJson.Lookup(objs.value[i], "steps_count") == None
  {
    var s := BeginIndexing(Init(m, dataDir), name, version);
    BegunAfterInit(m, dataDir, name, version);
    StatusWhileNotStarted(s, name, version, body, response, engineExists, spawn);
  }
}

=== FILE: server.dfy ===
/** The string handling of the HTTP front end: the tokenizer, the two
    request extractors, first-occurrence replacement, the framing of the
    plain and JSON 200 responses, and the packets pushed onto the message
    queue. Sockets are not modelled: every sender here returns the text it
    would write. */
module ViseServer {
  import opened Text

  // ---------------------------------------------------------------------
  // Tokenizer

  /** Appends to `tokens` the pieces of `s` between occurrences of `sep`,
      scanning left to right the way the server does. */
  method SplitString(s: string, sep: char, tokens: seq<string>) returns (out: seq<string>)
    ensures out == tokens + Split(s, sep)
    ensures |out| == |tokens| + Count(s, sep) + 1
    ensures out[..|tokens|] == tokens
    ensures forall k :: |tokens| <= k < |out| ==> sep !in out[k]
    ensures Join(out[|tokens|..], sep) == s
  {
    out := tokens;
    var start := 0;
    var i := 0;
    assert s[..0] == [];
    while i < |s|
      invariant 0 <= start <= i <= |s|
      invariant out + [s[start..i]] == tokens + Split(s[..i], sep)
    {
      if s[i] == sep {
        StepAtSeparator(s, sep, i, start, out, tokens);
        out := out + [s[start..i]];
        start := i + 1;
      } else {
        StepInsidePiece(s, sep, i, start, out, tokens);
      }
      i := i + 1;
    }
    assert s[..i] == s && s[start..i] == s[start..];
    out := out + [s[start..]];
    AppendedPieces(tokens, s, sep);
  }

  /** What appending the pieces of `s` to `tokens` keeps and adds. */
  lemma AppendedPieces(tokens: seq<string>, s: string, sep: char)
    ensures var out := tokens + Split(s, sep);
            && |out| == |tokens| + Count(s, sep) + 1
            && out[..|tokens|] == tokens
            && (forall k :: |tokens| <= k < |out| ==> sep !in out[k])
            && Join(out[|tokens|..], sep) == s
  {
    var out := tokens + Split(s, sep);
    SplitCount(s, sep);
    SplitNoSeparator(s, sep);
    JoinSplit(s, sep);
    assert out[|tokens|..] == Split(s, sep);
    assert forall k :: |tokens| <= k < |out| ==> out[k] == Split(s, sep)[k - |tokens|];
  }

  /** A separator closes the current piece and opens an empty one. */
  lemma StepAtSeparator(s: string, sep: char, i: nat, start: nat, out: seq<string>,
                        tokens: seq<string>)
    requires start <= i < |s| && s[i] == sep
    requires out + [s[start..i]] == tokens + Split(s[..i], sep)
    ensures (out + [s[start..i]]) + [s[i + 1..i + 1]] == tokens + Split(s[..i + 1], sep)
  {
    assert s[..i + 1] == s[..i] + [s[i]];
    SplitSnoc(s[..i], s[i], sep);
    assert s[i + 1..i + 1] == [];
  }

  /** Any other character extends the current piece. */
  lemma StepInsidePiece(s: string, sep: char, i: nat, start: nat, out: seq<string>,
                        tokens: seq<string>)
    requires start <= i < |s| && s[i] != sep
    requires out + [s[start..i]] == tokens + Split(s[..i], sep)
    ensures out + [s[start..i + 1]] == tokens + Split(s[..i + 1], sep)
  {
    assert s[..i + 1] == s[..i] + [s[i]];
    assert s[start..i + 1] == s[start..i] + [s[i]];
    ExtendPiece(out, s[start..i], s[i], tokens, s[..i], sep);
  }

  /** The scan invariant survives one more character that is not `sep`. */
  lemma ExtendPiece(out: seq<string>, x: string, c: char, tokens: seq<string>, p: string, sep: char)
    requires c != sep
    requires out + [x] == tokens + Split(p, sep)
    ensures out + [x + [c]] == tokens + Split(p + [c], sep)
  {
    var P := Split(p, sep);
    SplitSnoc(p, c, sep);
    LastPiece(out, x, tokens, P);
    assert tokens + (P[..|P| - 1] + [P[|P| - 1] + [c]]) == (tokens + P[..|P| - 1]) + [x + [c]];
  }

  /** Reading the last piece and the rest back off `tokens + pieces`. */
  lemma LastPiece(out: seq<string>, x: string, tokens: seq<string>, pieces: seq<string>)
    requires out + [x] == tokens + pieces && |pieces| >= 1
    ensures pieces[|pieces| - 1] == x
    ensures tokens + pieces[..|pieces| - 1] == out
  {
    assert (out + [x])[|out|] == x;
    assert (tokens + pieces)[..|out|] == tokens + pieces[..|pieces| - 1];
    assert (out + [x])[..|out|] == out;
  }

  // ---------------------------------------------------------------------
  // Request extraction

  /** `r` sits between the first and the second space of `req`. */
  predicate BetweenFirstSpaces(req: string, r: string)
  {
    exists i :: 0 <= i && i + |r| + 1 < |req| && ' ' !in req[..i] && req[i] == ' '
                && req[i + 1..i + 1 + |r|] == r && req[i + 1 + |r|] == ' '
  }

  /** The request target: the text between the first two spaces of the
      request line. */
  function ExtractHttpResource(req: string): (r: string)
    requires Count(req, ' ') >= 2
    ensures ' ' !in r
    ensures BetweenFirstSpaces(req, r)
  {
    SecondFound(req, ' ');
    var first := IndexOf(req, ' ').value;
    var second := IndexOfFrom(req, ' ', first + 1).value;
    var r := req[first + 1..second];
    assert req[first + 1..first + 1 + |r|] == r;
    r
  }

  lemma RequestLineSpaces(verb: string, uri: string, rest: string)
    ensures Count(verb + " " + uri + " " + rest, ' ') >= 2
  {
    var x := verb + " ";
    var y := x + uri;
    var z := y + " ";
    CountAppend(verb, " ", ' ');
    CountAppend(x, uri, ' ');
    CountAppend(y, " ", ' ');
    CountAppend(z, rest, ' ');
  }

  /** The resource is cut between the two searches' results. */
  lemma ResourceAt(req: string, first: nat, second: nat)
    requires Count(req, ' ') >= 2
    requires IndexOf(req, ' ') == Some(first) && IndexOfFrom(req, ' ', first + 1) == Some(second)
    ensures ExtractHttpResource(req) == req[first + 1..second]
  {
  }

  /** Where the two space searches land on `verb uri rest`. */
  lemma RequestLineSearches(req: string, verb: string, uri: string, rest: string, first: nat, second: nat)
    requires req == verb + " " + uri + " " + rest
    requires ' ' !in verb && ' ' !in uri
    requires first == |verb| && second == first + 1 + |uri|
    ensures IndexOf(req, ' ') == Some(first) && IndexOfFrom(req, ' ', first + 1) == Some(second)
    ensures req[first + 1..second] == uri
  {
    var a := verb + " " + uri;
    assert req == verb + [' '] + (uri + " " + rest);
    IndexOfAfter(verb, ' ', uri + " " + rest);
    assert a[first + 1..] == uri;
    assert req == a + [' '] + rest;
    IndexOfFromAfter(a, ' ', rest, first + 1);
    assert req[first + 1..second] == a[first + 1..];
  }

  /** On a request line `verb uri rest`, the resource is `uri`. */
  lemma ResourceOfRequestLine(verb: string, uri: string, rest: string)
    requires ' ' !in verb && ' ' !in uri
    ensures Count(verb + " " + uri + " " + rest, ' ') >= 2
    ensures ExtractHttpResource(verb + " " + uri + " " + rest) == uri
  {
    var req := verb + " " + uri + " " + rest;
    var first := |verb|;
    var second := first + 1 + |uri|;
    RequestLineSpaces(verb, uri, rest);
    RequestLineSearches(req, verb, uri, rest, first, second);
    ResourceAt(req, first, second);
  }

  /** The blank line between an HTTP head and its body. */
  const Blank: string := "\r\n\r\n"

  /** The message body: everything after the last blank line. */
  function ExtractHttpContent(req: string): (r: string)
    requires Occurs(req, Blank)
    ensures |r| + 4 <= |req| && r == req[|req| - |r|..]
    ensures OccursAt(req, Blank, |req| - |r| - 4)
    ensures forall j :: |req| - |r| - 4 < j ==> !OccursAt(req, Blank, j)
    ensures !Occurs(r, Blank)
  {
    var p := RFind(req, Blank).value;
    var r := req[p + 4..];
    forall k | 0 <= k <= |r|
      ensures !OccursAt(r, Blank, k)
    {
      if OccursAt(r, Blank, k) {
        assert req[p + 4 + k..p + 4 + k + 4] == r[k..k + 4];
        assert OccursAt(req, Blank, p + 4 + k);
        assert false;
      }
    }
    r
  }

  /** Past the separator of `head + blank line + body`, no blank line
      starts, under the conditions of `ContentOfMessage`. */
  lemma NoLaterBlank(head: string, body: string, j: int)
    requires !Occurs(body, Blank)
    requires !(|body| >= 2 && body[..2] == "\r\n")
    requires |head| < j
    ensures !OccursAt(head + Blank + body, Blank, j)
  {
    var t := head + Blank + body;
    var h := |head|;
    if j == h + 1 || j == h + 3 {
      assert t[j] == '\n';
    } else if j == h + 2 && j + 4 <= |t| {
      assert t[j + 2..j + 4] == body[..2];
    } else if h + 4 <= j && j + 4 <= |t| {
      assert t[j..j + 4] == body[j - h - 4..j - h];
      assert !OccursAt(body, Blank, j - h - 4);
    }
  }

  /** On a message `head + blank line + body`, the content is `body`
      provided the body brings no blank line of its own and does not start
      with a line break (which would form a later blank line with the
      separator). */
  lemma ContentOfMessage(head: string, body: string)
    requires !Occurs(body, Blank)
    requires !(|body| >= 2 && body[..2] == "\r\n")
    ensures Occurs(head + Blank + body, Blank)
    ensures ExtractHttpContent(head + Blank + body) == body
  {
    var t := head + Blank + body;
    var h := |head|;
    assert OccursAt(t, Blank, h);
    forall j | h < j
      ensures !OccursAt(t, Blank, j)
    {
      NoLaterBlank(head, body, j);
    }
    var r := ExtractHttpContent(t);
    assert |t| - |r| - 4 == h;
    assert t[h + 4..] == body;
  }

  // ---------------------------------------------------------------------
  // First-occurrence replacement

  /** Replaces the first occurrence of `pat` in `s` by `rep`; the flag says
      whether there was one. An empty `pat` is found at the front. */
  function ReplaceString(s: string, pat: string, rep: string): (r: (bool, string))
    ensures r.0 <==> Occurs(s, pat)
    ensures !r.0 ==> r.1 == s
    ensures r.0 ==> exists pos :: && OccursAt(s, pat, pos)
                                  && (forall i :: 0 <= i < pos ==> !OccursAt(s, pat, i))
                                  && r.1 == s[..pos] + rep + s[pos + |pat|..]
  {
    match Find(s, pat)
    case None => (false, s)
    case Some(pos) => (true, s[..pos] + rep + s[pos + |pat|..])
  }

  /** When `pat` first occurs right after `a`, exactly that occurrence is
      replaced and the rest of the text is kept. */
  lemma ReplaceFirstOccurrence(a: string, pat: string, rep: string, b: string)
    requires forall i :: 0 <= i < |a| ==> !OccursAt(a + pat + b, pat, i)
    ensures ReplaceString(a + pat + b, pat, rep) == (true, a + rep + b)
  {
    var s := a + pat + b;
    assert s[|a|..|a| + |pat|] == pat;
    assert OccursAt(s, pat, |a|);
    assert Find(s, pat) == Some(|a|);
    assert s[..|a|] == a && s[|a| + |pat|..] == b;
  }

  /** An empty pattern is inserted at the front. */
  lemma ReplaceEmpty(s: string, rep: string)
    ensures ReplaceString(s, "", rep) == (true, rep + s)
  {
    assert OccursAt(s, "", 0);
    assert s[..0] + rep + s[0..] == rep + s;
  }

  // ---------------------------------------------------------------------
  // Response framing

  /** Header lines joined by CRLF, as the server streams them one after
      another. */
  function Head(lines: seq<string>): string
  {
    if |lines| == 0 then ""
    else if |lines| == 1 then lines[0]
    else Head(lines[..|lines| - 1]) + "\r\n" + lines[|lines| - 1]
  }

  /** A head, the blank line, and the body verbatim. */
  function Frame(lines: seq<string>, body: string): string
  {
    Head(lines) + Blank + body
  }

  /** A parsed response: its head lines (status line first) and body. */
  datatype Message = Message(lines: seq<string>, body: string)

  /** A piece of the head split on CR, as a line: every piece after the
      first loses the LF of its line break. */
  function Unlead(piece: string, first: bool): string
  {
    if !first && |piece| >= 1 && piece[0] == '\n' then piece[1..] else piece
  }

  /** Undoes the CRLF join once the head has been split on CR. */
  function Unmark(pieces: seq<string>): (r: seq<string>)
    ensures |r| == |pieces|
  {
    if |pieces| == 0 then []
    else Unmark(pieces[..|pieces| - 1]) + [Unlead(pieces[|pieces| - 1], |pieces| == 1)]
  }

  /** Reads a response: the head ends at the first blank line, its lines are
      separated by CRLF, and the rest is the body. */
  function ParseResponse(t: string): (r: Option<Message>)
    ensures r.Some? <==> Occurs(t, Blank)
    ensures r.Some? ==> |r.value.lines| >= 1
    ensures r.Some? ==> |r.value.body| + 4 <= |t| && t[|t| - |r.value.body| - 4..] == Blank + r.value.body
  {
    match Find(t, Blank)
    case None => None
    case Some(p) => Some(Message(Unmark(Split(t[..p], '\r')), t[p + 4..]))
  }

  /** Header lines the reader can take back apart: non-empty and free of
      CR. */
  predicate HeadLines(lines: seq<string>)
  {
    |lines| >= 1 && forall k :: 0 <= k < |lines| ==> |lines[k]| >= 1 && '\r' !in lines[k]
  }

  /** A line as it appears between two CRs of the head: every line after
      the first is led by the LF of its line break. */
  function Mark(line: string, first: bool): (r: string)
    ensures Unlead(r, first) == line
  {
    if first then line else "\n" + line
  }

  /** The head as a CR-join of the marked lines. */
  function Marked(lines: seq<string>): (r: seq<string>)
    ensures |r| == |lines|
  {
    if |lines| == 0 then []
    else Marked(lines[..|lines| - 1]) + [Mark(lines[|lines| - 1], |lines| == 1)]
  }

  /** One more line adds one more LF-led piece ... */
  lemma MarkedSnoc(lines: seq<string>)
    requires |lines| >= 2
    ensures Marked(lines) == Marked(lines[..|lines| - 1]) + ["\n" + lines[|lines| - 1]]
  {
  }

  /** ... and one more CRLF and line to the head. */
  lemma HeadSnoc(lines: seq<string>)
    requires |lines| >= 2
    ensures Head(lines) == Head(lines[..|lines| - 1]) + ['\r'] + ("\n" + lines[|lines| - 1])
  {
    var h := Head(lines[..|lines| - 1]);
    var last := lines[|lines| - 1];
    assert h + "\r\n" + last == h + ['\r'] + ("\n" + last);
  }

  lemma {:induction false} HeadIsMarkedJoin(lines: seq<string>)
    requires |lines| >= 1
    ensures Head(lines) == Join(Marked(lines), '\r')
    decreases |lines|
  {
    if |lines| >= 2 {
      var init := lines[..|lines| - 1];
      HeadIsMarkedJoin(init);
      MarkedSnoc(lines);
      HeadSnoc(lines);
      JoinSnoc(Marked(init), "\n" + lines[|lines| - 1], '\r');
    }
  }

  /** One step of `Unmark`. */
  lemma UnmarkSnoc(pieces: seq<string>)
    requires |pieces| >= 1
    ensures Unmark(pieces)
            == Unmark(pieces[..|pieces| - 1]) + [Unlead(pieces[|pieces| - 1], |pieces| == 1)]
  {
  }

  /** Dropping the last line drops the last marked piece. */
  lemma MarkedFront(lines: seq<string>)
    requires |lines| >= 1
    ensures Marked(lines)[..|lines| - 1] == Marked(lines[..|lines| - 1])
    ensures Marked(lines)[|lines| - 1] == Mark(lines[|lines| - 1], |lines| == 1)
  {
  }

  /** Unmarking undoes marking, line by line. */
  lemma {:induction false} UnmarkMarked(lines: seq<string>)
    ensures Unmark(Marked(lines)) == lines
    decreases |lines|
  {
    if |lines| >= 1 {
      var n := |lines|;
      var init := lines[..n - 1];
      UnmarkMarked(init);
      UnmarkSnoc(Marked(lines));
      MarkedFront(lines);
      assert lines == init + [lines[n - 1]];
    }
  }

  /** Marking adds no CR. */
  lemma {:induction false} MarkedCrFree(lines: seq<string>)
    requires forall k :: 0 <= k < |lines| ==> '\r' !in lines[k]
    ensures forall k :: 0 <= k < |lines| ==> '\r' !in Marked(lines)[k]
    decreases |lines|
  {
    if |lines| >= 1 {
      var n := |lines|;
      MarkedCrFree(lines[..n - 1]);
      MarkedFront(lines);
      forall k | 0 <= k < n
        ensures '\r' !in Marked(lines)[k]
      {
        if k < n - 1 {
          assert Marked(lines)[k] == Marked(lines[..n - 1])[k];
        }
      }
    }
  }

  /** Every CR in a head of well-formed lines begins a line break and is
      followed, past the LF, by a character of the next line that is not
      CR. */
  lemma {:induction false} HeadBreaks(lines: seq<string>)
    requires HeadLines(lines)
    ensures forall i :: 0 <= i < |Head(lines)| && Head(lines)[i] == '\r' ==>
              i + 2 < |Head(lines)| && Head(lines)[i + 1] == '\n' && Head(lines)[i + 2] != '\r'
    decreases |lines|
  {
    if |lines| == 1 {
    } else {
      var init := lines[..|lines| - 1];
      var last := lines[|lines| - 1];
      HeadBreaks(init);
      var h := Head(init);
      assert Head(lines) == h + "\r\n" + last;
      forall i | 0 <= i < |Head(lines)| && Head(lines)[i] == '\r'
        ensures i + 2 < |Head(lines)| && Head(lines)[i + 1] == '\n' && Head(lines)[i + 2] != '\r'
      {
      }
    }
  }

  /** No blank line starts inside a head whose every CR begins a line
      break followed by a non-CR character. */
  lemma NoBlankBefore(h: string, body: string, i: nat)
    requires forall j :: 0 <= j < |h| && h[j] == '\r' ==> j + 2 < |h| && h[j + 1] == '\n' && h[j + 2] != '\r'
    requires i < |h|
    ensures !OccursAt(h + Blank + body, Blank, i)
  {
    var t := h + Blank + body;
    assert t[i] == h[i];
    if h[i] == '\r' {
      assert t[i + 2] == h[i + 2];
    }
  }

  /** The first blank line of a frame is the one after its head. */
  lemma FirstBlankOfFrame(lines: seq<string>, body: string)
    requires HeadLines(lines)
    ensures Find(Frame(lines, body), Blank) == Some(|Head(lines)|)
  {
    var t := Frame(lines, body);
    var h := Head(lines);
    HeadBreaks(lines);
    assert OccursAt(t, Blank, |h|);
    forall i | 0 <= i < |h|
      ensures !OccursAt(t, Blank, i)
    {
      NoBlankBefore(h, body, i);
    }
    FindFirst(t, Blank, |h|);
  }

  /** Reading a frame gives back its lines and its body. */
  lemma FrameRoundTrip(lines: seq<string>, body: string)
    requires HeadLines(lines)
    ensures ParseResponse(Frame(lines, body)) == Some(Message(lines, body))
  {
    var t := Frame(lines, body);
    var h := Head(lines);
    FirstBlankOfFrame(lines, body);
    assert t[..|h|] == h;
    assert t[|h| + 4..] == body;
    HeadIsMarkedJoin(lines);
    MarkedCrFree(lines);
    SplitJoin(Marked(lines), '\r');
    UnmarkMarked(lines);
  }

  /** Value of the first header line `name: value`. */
  function HeaderValue(lines: seq<string>, name: string): (r: Option<string>)
    ensures r.Some? ==> exists k :: 0 <= k < |lines| && lines[k] == name + ": " + r.value
    ensures r.None? ==> forall k :: 0 <= k < |lines| ==> !OccursAt(lines[k], name + ": ", 0)
  {
    if |lines| == 0 then None
    else
      var prefix := name + ": ";
      if OccursAt(lines[0], prefix, 0) then
        assert lines[0] == prefix + lines[0][|prefix|..];
        Some(lines[0][|prefix|..])
      else
        var r := HeaderValue(lines[1..], name);
        assert forall k :: 1 <= k < |lines| ==> lines[k] == lines[1..][k - 1];
        r
  }

  /** The declared body length, if a numeric `Content-Length` header is
      present. */
  function ContentLength(m: Message): Option<nat>
  {
    match HeaderValue(m.lines, "Content-Length")
    case None => None
    case Some(v) => ParseDecimal(v)
  }

  const OkStatus: string := "HTTP/1.1 200 OK"
  const HtmlTypeLine: string := "Content-type: text/html; charset=utf-8"
  const JsonTypeLine: string := "Content-type: application/json; charset=utf-8"
  const KeepAlive: string := "Connection: keep-alive"

  function LengthLine(body: string): string
  {
    "Content-Length: " + Decimal(|body|)
  }

  /** The text `SendRawResponse` writes for `body`. */
  function RawResponse(body: string): (r: string)
    ensures |r| >= |body| + 4 && r[|r| - |body| - 4..] == Blank + body
  {
    OkStatus + "\r\n" + HtmlTypeLine + "\r\n" + LengthLine(body) + "\r\n" + "\r\n" + body
  }

  /** The text `SendJsonResponse` writes for `json`. */
  function JsonResponse(json: string): (r: string)
    ensures |r| >= |json| + 4 && r[|r| - |json| - 4..] == Blank + json
  {
    OkStatus + "\r\n" + JsonTypeLine + "\r\n" + LengthLine(json) + "\r\n" + KeepAlive + "\r\n"
    + "\r\n" + json
  }

  lemma LiteralLinesReadable(body: string)
    ensures |OkStatus| >= 1 && '\r' !in OkStatus
    ensures |HtmlTypeLine| >= 1 && '\r' !in HtmlTypeLine
    ensures |JsonTypeLine| >= 1 && '\r' !in JsonTypeLine
    ensures |KeepAlive| >= 1 && '\r' !in KeepAlive
    ensures |LengthLine(body)| >= 1 && '\r' !in LengthLine(body)
  {
    CrFree(OkStatus);
    CrFree(HtmlTypeLine);
    CrFree(JsonTypeLine);
    CrFree(KeepAlive);
    CrFree("Content-Length: ");
    var d := Decimal(|body|);
    assert forall i :: 0 <= i < |d| ==> d[i] != '\r';
  }

  /** Absence of a carriage return, checked one position at a time. */
  lemma CrFree(s: string)
    requires forall i :: 0 <= i < |s| ==> s[i] != '\r'
    ensures '\r' !in s
  {
  }

  /** Reading the plain response back gives its three head lines, the body
      verbatim, and a Content-Length equal to the body's length. */
  lemma RawResponseReadsBack(body: string)
    ensures ParseResponse(RawResponse(body)) == Some(Message([OkStatus, HtmlTypeLine, LengthLine(body)], body))
    ensures ContentLength(Message([OkStatus, HtmlTypeLine, LengthLine(body)], body)) == Some(|body|)
  {
    var lines := [OkStatus, HtmlTypeLine, LengthLine(body)];
    LiteralLinesReadable(body);
    assert Head(lines[..2]) == OkStatus + "\r\n" + HtmlTypeLine;
    assert RawResponse(body) == Frame(lines, body);
    FrameRoundTrip(lines, body);
    LengthHeader(lines, body);
  }

  /** Reading the JSON response back gives its four head lines, the body
      verbatim, and a Content-Length equal to the body's length. */
  lemma JsonResponseReadsBack(json: string)
    ensures ParseResponse(JsonResponse(json))
            == Some(Message([OkStatus, JsonTypeLine, LengthLine(json), KeepAlive], json))
    ensures ContentLength(Message([OkStatus, JsonTypeLine, LengthLine(json), KeepAlive], json))
            == Some(|json|)
  {
    var lines := [OkStatus, JsonTypeLine, LengthLine(json), KeepAlive];
    LiteralLinesReadable(json);
    assert Head(lines[..2]) == OkStatus + "\r\n" + JsonTypeLine;
    assert lines[..3][..2] == lines[..2];
    assert Head(lines[..3]) == OkStatus + "\r\n" + JsonTypeLine + "\r\n" + LengthLine(json);
    assert JsonResponse(json) == Frame(lines, json);
    FrameRoundTrip(lines, json);
    LengthHeader(lines, json);
  }

  /** The length line is the only `Content-Length` header of either
      response, so it is the one the reader finds. */
  lemma LengthHeader(lines: seq<string>, body: string)
    requires |lines| >= 3 && lines[..3] == [OkStatus, lines[1], LengthLine(body)]
    requires lines[1] == HtmlTypeLine || lines[1] == JsonTypeLine
    ensures ContentLength(Message(lines, body)) == Some(|body|)
  {
    var prefix := "Content-Length" + ": ";
    assert !OccursAt(lines[0], prefix, 0) by { assert lines[0][0] != prefix[0]; }
    assert !OccursAt(lines[1], prefix, 0) by { assert lines[1][8] != prefix[8]; }
    assert LengthLine(body)[|prefix|..] == Decimal(|body|);
    assert OccursAt(lines[2], prefix, 0);
    assert lines[1..][1..] == lines[2..];
    assert HeaderValue(lines[2..], "Content-Length") == Some(Decimal(|body|));
    assert HeaderValue(lines[1..], "Content-Length") == HeaderValue(lines[2..], "Content-Length");
    DecimalRoundTrip(|body|);
  }

  /** The body of the plain response is what the content extractor takes
      back out, for a body without blank lines that does not start with a
      line break. */
  lemma RawResponseContent(body: string)
    requires !Occurs(body, Blank)
    requires !(|body| >= 2 && body[..2] == "\r\n")
    ensures Occurs(RawResponse(body), Blank)
    ensures ExtractHttpContent(RawResponse(body)) == body
  {
    var head := OkStatus + "\r\n" + HtmlTypeLine + "\r\n" + LengthLine(body);
    assert RawResponse(body) == head + Blank + body;
    ContentOfMessage(head, body);
  }

  /** The same for the JSON response. */
  lemma JsonResponseContent(json: string)
    requires !Occurs(json, Blank)
    requires !(|json| >= 2 && json[..2] == "\r\n")
    ensures Occurs(JsonResponse(json), Blank)
    ensures ExtractHttpContent(JsonResponse(json)) == json
  {
    var head := OkStatus + "\r\n" + JsonTypeLine + "\r\n" + LengthLine(json) + "\r\n" + KeepAlive;
    assert JsonResponse(json) == head + Blank + json;
    ContentOfMessage(head, json);
  }

  // ---------------------------------------------------------------------
  // Message-queue packets

  const MessageWord: string := "message_panel"
  const StatusWord: string := "status"

  /** `sender message_panel message`, as queued for the message panel. A space-free sender is the text before
      the first space, and the payload is the tail of the packet. */
  function MessagePacket(sender: string, message: string): (p: string)
    ensures ' ' !in sender ==> IndexOf(p, ' ') == Some(|sender|) && p[..|sender|] == sender
    ensures |p| >= |message| && p[|p| - |message|..] == message
  {
    var p := sender + " " + MessageWord + " " + message;
    assert ' ' !in sender ==> IndexOf(p, ' ') == Some(|sender|) && p[..|sender|] == sender by {
      if ' ' !in sender {
        KindWordsSpaceFree();
        PacketFront(sender, MessageWord, message);
      }
    }
    p
  }

  /** `sender status status`, as queued for the status line. A space-free sender is the text before
      the first space, and the payload is the tail of the packet. */
  function StatusPacket(sender: string, status: string): (p: string)
    ensures ' ' !in sender ==> IndexOf(p, ' ') == Some(|sender|) && p[..|sender|] == sender
    ensures |p| >= |status| && p[|p| - |status|..] == status
  {
    var p := sender + " " + StatusWord + " " + status;
    assert ' ' !in sender ==> IndexOf(p, ' ') == Some(|sender|) && p[..|sender|] == sender by {
      if ' ' !in sender {
        KindWordsSpaceFree();
        PacketFront(sender, StatusWord, status);
      }
    }
    p
  }

  datatype Kind = MessagePanel | Status

  datatype Packet = Packet(sender: string, kind: Kind, payload: string)

  /** A text cut at two spaces is its three parts glued back with spaces. */
  lemma CutAtSpaces(p: string, i: nat, j: nat)
    requires i < |p| && p[i] == ' '
    requires j < |p[i + 1..]| && p[i + 1..][j] == ' '
    ensures p == p[..i] + " " + p[i + 1..][..j] + " " + p[i + 1..][j + 1..]
  {
    var after := p[i + 1..];
    assert after == after[..j] + " " + after[j + 1..];
    assert p == p[..i] + " " + after;
  }

  /** Reads a packet: sender up to the first space, kind up to the next. */
  function ParsePacket(p: string): (r: Option<Packet>)
    ensures r.Some? && r.value.kind == MessagePanel ==> p == MessagePacket(r.value.sender, r.value.payload)
    ensures r.Some? && r.value.kind == Status ==> p == StatusPacket(r.value.sender, r.value.payload)
    ensures r.Some? ==> ' ' !in r.value.sender
  {
    match IndexOf(p, ' ')
    case None => None
    case Some(i) =>
      var after := p[i + 1..];
      match IndexOf(after, ' ')
      case None => None
      case Some(j) =>
        var kind := after[..j];
        CutAtSpaces(p, i, j);
        if kind == MessageWord then Some(Packet(p[..i], MessagePanel, after[j + 1..]))
        else if kind == StatusWord then Some(Packet(p[..i], Status, after[j + 1..]))
        else None
  }

  lemma PacketFront(sender: string, kind: string, payload: string)
    requires ' ' !in sender && ' ' !in kind
    ensures var p := sender + " " + kind + " " + payload;
            && IndexOf(p, ' ') == Some(|sender|)
            && p[..|sender|] == sender
            && p[|sender| + 1..] == kind + " " + payload
            && IndexOf(kind + " " + payload, ' ') == Some(|kind|)
            && (kind + " " + payload)[..|kind|] == kind
            && (kind + " " + payload)[|kind| + 1..] == payload
  {
    var tail := kind + " " + payload;
    var p := sender + " " + tail;
    assert sender + " " + kind + " " + payload == p;
    assert p == sender + [' '] + tail;
    IndexOfAfter(sender, ' ', tail);
    assert tail == kind + [' '] + payload;
    IndexOfAfter(kind, ' ', payload);
  }

  lemma KindWordsSpaceFree()
    ensures ' ' !in MessageWord && ' ' !in StatusWord
    ensures MessageWord != StatusWord
  {
    var m := MessageWord;
    assert forall i :: 0 <= i < |m| ==> m[i] != ' ';
    assert |MessageWord| != |StatusWord|;
  }

  /** A message packet from a space-free sender reads back as sent. */
  lemma MessagePacketRoundTrip(sender: string, message: string)
    requires ' ' !in sender
    ensures ParsePacket(MessagePacket(sender, message)) == Some(Packet(sender, MessagePanel, message))
  {
    KindWordsSpaceFree();
    PacketFront(sender, MessageWord, message);
  }

  /** A status packet from a space-free sender reads back as sent. */
  lemma StatusPacketRoundTrip(sender: string, status: string)
    requires ' ' !in sender
    ensures ParsePacket(StatusPacket(sender, status)) == Some(Packet(sender, Status, status))
  {
    KindWordsSpaceFree();
    PacketFront(sender, StatusWord, status);
  }

  /** Messages and status updates cannot be mistaken for one another. */
  lemma PacketsDistinct(s1: string, message: string, s2: string, status: string)
    requires ' ' !in s1 && ' ' !in s2
    ensures MessagePacket(s1, message) != StatusPacket(s2, status)
  {
    MessagePacketRoundTrip(s1, message);
    StatusPacketRoundTrip(s2, status);
  }
}

=== FILE: text.dfy ===
/** Character-sequence helpers shared by the HTTP server, the search-engine
    manager and the filename parser: character and substring search,
    splitting on a single separator character and joining back, and
    decimal rendering of lengths. */
module Text {

  datatype Option<T> = None | Some(value: T)

  /** Number of occurrences of `c` in `s`. */
  function Count(s: string, c: char): nat
  {
    if |s| == 0 then 0
    else Count(s[..|s| - 1], c) + (if s[|s| - 1] == c then 1 else 0)
  }

  lemma {:induction false} CountAppend(a: string, b: string, c: char)
    ensures Count(a + b, c) == Count(a, c) + Count(b, c)
    decreases |b|
  {
    if |b| == 0 {
      assert a + b == a;
    } else {
      assert (a + b)[..|a + b| - 1] == a + b[..|b| - 1];
      CountAppend(a, b[..|b| - 1], c);
    }
  }

  lemma {:induction false} CountZero(s: string, c: char)
    ensures Count(s, c) == 0 <==> c !in s
    decreases |s|
  {
    if |s| > 0 {
      CountZero(s[..|s| - 1], c);
      assert s == s[..|s| - 1] + [s[|s| - 1]];
    }
  }

  // ---------------------------------------------------------------------
  // Character search

  /** Position of the first `c` in `s`, if any. */
  function IndexOf(s: string, c: char): (r: Option<nat>)
    ensures r.Some? ==> r.value < |s| && s[r.value] == c && c !in s[..r.value]
    ensures r.None? ==> c !in s
  {
    if |s| == 0 then None
    else if s[0] == c then Some(0)
    else match IndexOf(s[1..], c)
      case None => None
      case Some(k) =>
        assert s[..k + 1] == [s[0]] + s[1..][..k];
        Some(k + 1)
  }

  /** Position of the first `c` in `s` at or after `from`, if any. */
  function IndexOfFrom(s: string, c: char, from: nat): (r: Option<nat>)
    ensures r.Some? ==> from <= r.value < |s| && s[r.value] == c
    ensures r.Some? ==> forall i :: from <= i < r.value ==> s[i] != c
    ensures r.None? ==> forall i :: from <= i < |s| ==> s[i] != c
  {
    if from >= |s| then None
    else match IndexOf(s[from..], c)
      case None =>
        assert forall i :: from <= i < |s| ==> s[i] == s[from..][i - from];
        None
      case Some(k) =>
        assert forall i :: from <= i < from + k ==> s[i] == s[from..][..k][i - from];
        Some(from + k)
  }

  /** Position of the last `c` in `s`, if any. */
  function LastIndexOf(s: string, c: char): (r: Option<nat>)
    ensures r.Some? ==> r.value < |s| && s[r.value] == c && c !in s[r.value + 1..]
    ensures r.None? ==> c !in s
  {
    if |s| == 0 then None
    else if s[|s| - 1] == c then Some(|s| - 1)
    else match LastIndexOf(s[..|s| - 1], c)
      case None => None
      case Some(k) =>
        assert s[k + 1..] == s[..|s| - 1][k + 1..] + [s[|s| - 1]];
        Some(k)
  }

  /** In `a + [c] + b`, the first `c` is the one after `a` when `a` has none. */
  lemma IndexOfAfter(a: string, c: char, b: string)
    requires c !in a
    ensures IndexOf(a + [c] + b, c) == Some(|a|)
  {
    var s := a + [c] + b;
    assert s[|a|] == c;
  }

  /** Text cut at its first `c` determines both sides of the cut. */
  lemma CutAtFirst(a1: string, b1: string, a2: string, b2: string, c: char)
    requires c !in a1 && c !in a2
    requires a1 + [c] + b1 == a2 + [c] + b2
    ensures a1 == a2 && b1 == b2
  {
    IndexOfAfter(a1, c, b1);
    IndexOfAfter(a2, c, b2);
    var s := a1 + [c] + b1;
    assert a1 == s[..|a1|];
    assert b1 == s[|a1| + 1..];
    assert a2 + [c] + b2 == s;
    assert a2 == s[..|a2|];
    assert b2 == s[|a2| + 1..];
  }

  /** Searching from inside `a`, past which `a` has no `c`, finds the `c`
      after `a`. */
  lemma IndexOfFromAfter(a: string, c: char, b: string, from: nat)
    requires from <= |a| && c !in a[from..]
    ensures IndexOfFrom(a + [c] + b, c, from) == Some(|a|)
  {
    var s := a + [c] + b;
    assert s[|a|] == c;
    assert forall i :: from <= i < |a| ==> s[i] == a[from..][i - from];
  }

  /** Past the first `c`, one `c` fewer remains. */
  lemma CountAfterFirst(s: string, c: char, f: nat)
    requires IndexOf(s, c) == Some(f)
    ensures Count(s[f + 1..], c) + 1 == Count(s, c)
  {
    var a := s[..f];
    var b := s[f + 1..];
    assert s == (a + [c]) + b;
    CountAppend(a + [c], b, c);
    CountAppend(a, [c], c);
    CountZero(a, c);
    assert [c][..0] == [];
  }

  /** A `c` somewhere at or after `from` is found from there. */
  lemma FoundFrom(s: string, c: char, from: nat)
    requires from <= |s| && c in s[from..]
    ensures IndexOfFrom(s, c, from).Some?
  {
    var k :| 0 <= k < |s[from..]| && s[from..][k] == c;
    assert s[from + k] == c;
  }

  /** Text with two `c`s has a first one and another after it. */
  lemma SecondFound(s: string, c: char)
    requires Count(s, c) >= 2
    ensures IndexOf(s, c).Some?
    ensures IndexOfFrom(s, c, IndexOf(s, c).value + 1).Some?
  {
    CountZero(s, c);
    var first := IndexOf(s, c).value;
    CountAfterFirst(s, c, first);
    CountZero(s[first + 1..], c);
    FoundFrom(s, c, first + 1);
  }

  /** Searching from the start is searching. */
  lemma IndexOfFromZero(s: string, c: char)
    ensures IndexOfFrom(s, c, 0) == IndexOf(s, c)
  {
    assert s[0..] == s;
  }

  // ---------------------------------------------------------------------
  // Substring search

  /** `pat` occurs in `s` starting at position `i`. */
  predicate OccursAt(s: string, pat: string, i: int)
  {
    0 <= i && i + |pat| <= |s| && s[i..i + |pat|] == pat
  }

  /** `pat` occurs somewhere in `s`. */
  predicate Occurs(s: string, pat: string)
  {
    exists i :: 0 <= i <= |s| && OccursAt(s, pat, i)
  }

  /** First occurrence of `pat` in `s` at or after `from`. */
  function FindFrom(s: string, pat: string, from: nat): (r: Option<nat>)
    decreases |s| - from
    ensures r.Some? ==> from <= r.value && OccursAt(s, pat, r.value)
    ensures r.Some? ==> forall i :: from <= i < r.value ==> !OccursAt(s, pat, i)
    ensures r.None? ==> forall i :: from <= i ==> !OccursAt(s, pat, i)
  {
    if from + |pat| > |s| then None
    else if s[from..from + |pat|] == pat then Some(from)
    else FindFrom(s, pat, from + 1)
  }

  /** First occurrence of `pat` in `s` (C++ `std::string::find`). */
  function Find(s: string, pat: string): (r: Option<nat>)
    ensures r.Some? <==> Occurs(s, pat)
    ensures r.Some? ==> OccursAt(s, pat, r.value)
    ensures r.Some? ==> forall i :: 0 <= i < r.value ==> !OccursAt(s, pat, i)
  {
    FindFrom(s, pat, 0)
  }

  /** An occurrence with none before it is the one `Find` reports. */
  lemma FindFirst(s: string, pat: string, p: nat)
    requires OccursAt(s, pat, p)
    requires forall i :: 0 <= i < p ==> !OccursAt(s, pat, i)
    ensures Find(s, pat) == Some(p)
  {
    assert Occurs(s, pat);
  }

  /** Last occurrence of `pat` in `s` that starts at or before `i`. */
  function LastAtOrBefore(s: string, pat: string, i: int): (r: Option<nat>)
    decreases i + 1
    ensures r.Some? ==> r.value <= i && OccursAt(s, pat, r.value)
    ensures r.Some? ==> forall j :: r.value < j <= i ==> !OccursAt(s, pat, j)
    ensures r.None? ==> forall j :: j <= i ==> !OccursAt(s, pat, j)
  {
    if i < 0 then None
    else if OccursAt(s, pat, i) then Some(i)
    else LastAtOrBefore(s, pat, i - 1)
  }

  /** Last occurrence of `pat` in `s` (C++ `std::string::rfind`). */
  function RFind(s: string, pat: string): (r: Option<nat>)
    ensures r.Some? <==> Occurs(s, pat)
    ensures r.Some? ==> OccursAt(s, pat, r.value)
    ensures r.Some? ==> forall j :: r.value < j ==> !OccursAt(s, pat, j)
  {
    LastAtOrBefore(s, pat, |s| - |pat|)
  }

  // ---------------------------------------------------------------------
  // Split on one separator character, and join back

  /** The pieces of `s` between occurrences of `sep`, built one character at
      a time the way a left-to-right scan emits them. */
  function Split(s: string, sep: char): (r: seq<string>)
    ensures |r| >= 1
  {
    if |s| == 0 then [[]]
    else
      var init := Split(s[..|s| - 1], sep);
      if s[|s| - 1] == sep then init + [[]]
      else init[..|init| - 1] + [init[|init| - 1] + [s[|s| - 1]]]
  }

  /** The pieces `ts` glued together with one `sep` between neighbours. */
  function Join(ts: seq<string>, sep: char): string
  {
    if |ts| == 0 then []
    else if |ts| == 1 then ts[0]
    else Join(ts[..|ts| - 1], sep) + [sep] + ts[|ts| - 1]
  }

  /** Splitting yields one more piece than there are separators. */
  lemma {:induction false} SplitCount(s: string, sep: char)
    ensures |Split(s, sep)| == Count(s, sep) + 1
    decreases |s|
  {
    if |s| > 0 {
      SplitCount(s[..|s| - 1], sep);
    }
  }

  /** No piece of a split contains the separator. */
  lemma {:induction false} SplitNoSeparator(s: string, sep: char)
    ensures forall k :: 0 <= k < |Split(s, sep)| ==> sep !in Split(s, sep)[k]
    decreases |s|
  {
    if |s| > 0 {
      SplitNoSeparator(s[..|s| - 1], sep);
    }
  }

  /** One step of `Split`: the pieces of `p + [c]` from the pieces of `p`. */
  lemma SplitSnoc(p: string, c: char, sep: char)
    ensures var init := Split(p, sep);
            Split(p + [c], sep)
            == if c == sep then init + [[]]
               else init[..|init| - 1] + [init[|init| - 1] + [c]]
  {
    assert (p + [c])[..|p|] == p;
  }

  /** One step of `Join`: one more piece adds a separator and the piece. */
  lemma JoinSnoc(ts: seq<string>, t: string, sep: char)
    requires |ts| >= 1
    ensures Join(ts + [t], sep) == Join(ts, sep) + [sep] + t
  {
    assert (ts + [t])[..|ts|] == ts;
  }

  /** Joining the pieces of a split gives back the original text. */
  lemma {:induction false} JoinSplit(s: string, sep: char)
    ensures Join(Split(s, sep), sep) == s
    decreases |s|
  {
    if |s| > 0 {
      var p := s[..|s| - 1];
      var c := s[|s| - 1];
      assert s == p + [c];
      var init := Split(p, sep);
      JoinSplit(p, sep);
      SplitSnoc(p, c, sep);
      if c == sep {
        JoinSnoc(init, [], sep);
      } else if |init| == 1 {
        assert Split(s, sep) == [init[0] + [c]];
      } else {
        var front := init[..|init| - 1];
        var last := init[|init| - 1];
        assert init == front + [last];
        JoinSnoc(front, last, sep);
        JoinSnoc(front, last + [c], sep);
      }
    }
  }

  /** Text without a separator splits into itself alone. */
  lemma {:induction false} SplitWithoutSeparator(t: string, sep: char)
    requires sep !in t
    ensures Split(t, sep) == [t]
    decreases |t|
  {
    if |t| > 0 {
      SplitWithoutSeparator(t[..|t| - 1], sep);
      assert t == t[..|t| - 1] + [t[|t| - 1]];
    }
  }

  /** Extending the last of the pieces `L + R` extends the last of `R`. */
  lemma ExtendLastPiece(L: seq<string>, R: seq<string>, c: char)
    requires |R| >= 1
    ensures var LR := L + R;
            LR[..|LR| - 1] + [LR[|LR| - 1] + [c]] == L + (R[..|R| - 1] + [R[|R| - 1] + [c]])
  {
    var LR := L + R;
    assert LR[..|LR| - 1] == L + R[..|R| - 1];
  }

  /** One more character keeps a split of the form `L + Split(b)` in that
      form: a separator opens a new piece in both, ... */
  lemma SplitStepSeparator(x: string, b: string, sep: char, L: seq<string>)
    requires Split(x, sep) == L + Split(b, sep)
    ensures Split(x + [sep], sep) == L + Split(b + [sep], sep)
  {
    SplitSnoc(x, sep, sep);
    SplitSnoc(b, sep, sep);
    assert L + Split(b, sep) + [[]] == L + (Split(b, sep) + [[]]);
  }

  /** ... and any other character extends the last piece of both. */
  lemma SplitStepOther(x: string, b: string, c: char, sep: char, L: seq<string>)
    requires c != sep
    requires Split(x, sep) == L + Split(b, sep)
    ensures Split(x + [c], sep) == L + Split(b + [c], sep)
  {
    SplitSnoc(x, c, sep);
    SplitSnoc(b, c, sep);
    ExtendLastPiece(L, Split(b, sep), c);
  }

  /** Splitting distributes over a separator: the pieces of `a` followed by
      those of `b`. */
  lemma {:induction false} SplitAtSeparator(a: string, sep: char, b: string)
    ensures Split(a + [sep] + b, sep) == Split(a, sep) + Split(b, sep)
    decreases |b|
  {
    if |b| == 0 {
      SplitSnoc(a, sep, sep);
      assert a + [sep] + b == a + [sep];
    } else {
      var b' := b[..|b| - 1];
      var c := b[|b| - 1];
      SplitAtSeparator(a, sep, b');
      if c == sep {
        SplitStepSeparator(a + [sep] + b', b', sep, Split(a, sep));
      } else {
        SplitStepOther(a + [sep] + b', b', c, sep, Split(a, sep));
      }
      assert b == b' + [c];
      assert a + [sep] + b == (a + [sep] + b') + [c];
    }
  }

  /** Splitting the join of separator-free pieces gives back the pieces. */
  lemma {:induction false} SplitJoin(ts: seq<string>, sep: char)
    requires |ts| >= 1
    requires forall k :: 0 <= k < |ts| ==> sep !in ts[k]
    ensures Split(Join(ts, sep), sep) == ts
    decreases |ts|
  {
    if |ts| == 1 {
      SplitWithoutSeparator(ts[0], sep);
    } else {
      var front := ts[..|ts| - 1];
      var last := ts[|ts| - 1];
      SplitJoin(front, sep);
      SplitAtSeparator(Join(front, sep), sep, last);
      SplitWithoutSeparator(last, sep);
      calc {
        Split(Join(ts, sep), sep);
        Split(Join(front, sep) + [sep] + last, sep);
        Split(Join(front, sep), sep) + Split(last, sep);
        front + [last];
        { assert ts == front + [last]; }
        ts;
      }
    }
  }

  // ---------------------------------------------------------------------
  // Decimal numerals, as `operator<<` writes an unsigned length

  predicate IsDigit(c: char)
  {
    '0' <= c <= '9'
  }

  function DigitChar(d: nat): (c: char)
    requires d < 10
    ensures IsDigit(c) && c as int - '0' as int == d
  {
    ('0' as int + d) as char
  }

  /** Canonical decimal numeral of `n`: digits only, no leading zero. */
  function Decimal(n: nat): (r: string)
    ensures |r| >= 1
    ensures forall i :: 0 <= i < |r| ==> IsDigit(r[i])
    ensures r[0] == '0' ==> n == 0
  {
    if n < 10 then [DigitChar(n)] else Decimal(n / 10) + [DigitChar(n % 10)]
  }

  /** Value of a non-empty all-digit numeral; None for anything else. */
  function ParseDecimal(s: string): (r: Option<nat>)
  {
    if |s| == 0 || !IsDigit(s[|s| - 1]) then None
    else
      var d := s[|s| - 1] as int - '0' as int;
      if |s| == 1 then Some(d)
      else match ParseDecimal(s[..|s| - 1])
        case None => None
        case Some(v) => Some(10 * v + d)
  }

  /** Reading a rendered numeral gives back the number. */
  lemma {:induction false} DecimalRoundTrip(n: nat)
    ensures ParseDecimal(Decimal(n)) == Some(n)
  {
    if n >= 10 {
      DecimalRoundTrip(n / 10);
      var s := Decimal(n);
      assert s[..|s| - 1] == Decimal(n / 10);
    }
  }
}
